=== FILE: README.md ===
# mmhZoom core in Dafny

This project models the three pieces of sequential logic in mmhZoom.

- **The frame-loop engine `VideoLooper` (src/camera.py).** It relays live camera frames to a virtual webcam and keeps the newest 30 frames (two seconds at 15 frames per second) in a history. On request it replays that history in a cycle instead. A pass of `loop()` sleeps away what is left of the frame period.
  - The state is an immutable record, `Looper.VideoLooper`. One pass is the pure function `Looper.Loop`.
  - The replay cursor `iter(CycleLoop(n))`, which is `itertools.cycle(range(n))`, is `Cycle.CycleLoop`.
  - Two parts of `RealCamera` are modelled in `Devices`: the filtering of the listed capture devices, and the single-slot cache of the most recent frame.
- **Meetings (meeting.py and the older meeting_ui.py).** This covers the ID and password validators, `__str__`, and the index operations of `MeetingList`. It also covers the `save` / `load_from_file` tuple encoding.
  - The two files carry word-for-word the same validators, `__str__` and index operations. These are defined once, in `MeetingFormat` and `PyList`.
  - `Meetings` holds the four-field meeting.py version, whose load falls back to an empty list on a missing file, malformed JSON or a rejected entry.
  - `MeetingsUi` holds the three-field meeting_ui.py version, whose load lets every error through.
- **Auto-join (meeting_join.py).** `MeetingAutoJoin.process` opens every meeting whose start time lies strictly between the previous check and this one. `join_meeting` builds the URL it opens. Both are in `AutoJoin`.

Python exceptions become `Result` failures whose error values name the exception:
- `IndexError` and `StopIteration`;
- each `ValueError` message of the validators;
- the `AssertionError` of `process`.

Python's negative list indices are modelled. Times are modelled as follows:
- a meeting's start time is an integer timestamp;
- the frame-loop timing uses exact reals in seconds.

Two points about the engine's code shape the model:
- The replay cursor is `iter(CycleLoop(buffer_capacity))`, built once in the constructor (src/camera.py:162). It therefore wraps at the capacity, not at the history's current length. Replay only happens on a full history, which never shrinks, so every replay read stays in bounds (`Looper.RunKeepsWf`).
- `set_gather` and `set_looping` change the flags immediately, between passes. `SetGather` and `SetLooping` are therefore state changes that can be interleaved freely with passes (`Looper.Event`).

Modules, one per file, in dependency order: `Wrappers`, `PyList`, `Text`, `MeetingFormat`, `Meetings`, `MeetingsUi`, `AutoJoin`, `Cycle`, `Looper`, `Devices`.

## Model

| member | source | states |
|---|---|---|
| `Devices.GetDevices` | src/camera.py:38-42 | a device is kept exactly when it is listed and is not the virtual output device `/dev/video2` |
| `Devices.GetDevicesAppend` | src/camera.py:42 | filtering works piecewise over the list, so the kept devices stay in their listed order |
| `Devices.GetDevicesWithoutFake` | src/camera.py:42 | a list without the virtual device is returned as it is |
| `Devices.GetDefaultDevice` | src/camera.py:44-49 | fails with "No camera available" exactly when every listed device is the virtual one; otherwise returns the first listed device that is not |
| `Devices.FirstKept` | src/camera.py:46-49 | the first device kept is preceded in the listing only by the virtual device |
| `Devices.NewRealCamera` | src/camera.py:26-36 | a new camera keeps its device id and has no recent frame |
| `Devices.Read` | src/camera.py:51-62 | `read()` returns the captured frame and makes it the recent frame |
| `Devices.ReadRecentFrame` | src/camera.py:70-76 | `read_recent_frame` gives `None` when no frame is cached, and otherwise a frame equal to the cached one |
| `Devices.RecentFrameIsLastRead` | src/camera.py:70-76 | `read_recent_frame` gives `None` before any read, and afterwards the frame of the last read |
| `Devices.ReadsKeepLast` | src/camera.py:60 | after a run of reads the cached frame is that of the last read; after none it is unchanged |
| `Cycle.Start` | src/camera.py:137-143 | a fresh `iter(CycleLoop(n))` is well formed over `range(n)` and yields 0 first |
| `Cycle.Next` | src/camera.py:142-143 | `next` raises `StopIteration` exactly on an empty range; otherwise it yields the value the cursor stands on, which is below `n`, and the cursor moves one step modulo `n` |
| `Cycle.Take` | src/camera.py:143 | `k` calls of `next` yield `k` values, all in `range(n)` |
| `Cycle.AdvanceIsCyclic` | src/camera.py:143 | `k` calls of `next` from position `p` leave the cursor at `(p + k) % n` |
| `Cycle.TakeIsCyclic` | src/camera.py:143 | the `i`-th value yielded from position `p` is `(p + i) % n`, so the values run on across calls |
| `Cycle.TakeWraps` | src/camera.py:143 | within one round the `i`-th value from position `p` is `p + i`, less `n` once past the end |
| `Cycle.AdvanceWraps` | src/camera.py:143 | within one round `k` calls leave the cursor at `p + k`, less `n` once past the end |
| `Cycle.FullRoundAt` | src/camera.py:143 | the `i`-th of `n` values from position `p` is the `i`-th of `p, ..., n-1, 0, ..., p-1` |
| `Cycle.FullRound` | src/camera.py:137-143 | `n` calls yield every value of `range(n)` once, starting at the cursor, and return the cursor to where it was |
| `Looper.FrameDelayIsPeriod` | src/camera.py:147-148 | the frame delay is `1 / fps` |
| `Looper.Ceil` | src/camera.py:150 | `math.ceil`: the least integer at or above its argument |
| `Looper.BufferCapacityIsWindow` | src/camera.py:146-150 | the history capacity 30 is `math.ceil(fps * num_seconds)` |
| `Looper.NewLooper` | src/camera.py:154-162 | a new looper has an empty history, gathers, does not loop, and has its cursor at 0 over `range(buffer_capacity)` |
| `Looper.SetGather` | src/camera.py:167-168 | `set_gather` sets the gather flag and changes nothing else |
| `Looper.GetLooping` | src/camera.py:170-173 | reading `is_looping` gives true exactly when the flag is set and `can_loop` holds, and clears the flag otherwise |
| `Looper.SetLooping` | src/camera.py:175-177 | after `set_looping(v)` the flag is set exactly when `v` and `can_loop` both hold; nothing else changes |
| `Looper.LoopOnOffKeepsHistory` | src/camera.py:175-177 | requesting looping on and then off leaves the history and the cursor unchanged and looping off |
| `Looper.AddFrame` | src/camera.py:192-195 | `add_frame` appends, and drops the oldest frame when the history was full; the history never exceeds capacity |
| `Looper.AddFrameIsNewest` | src/camera.py:192-195 | one `add_frame` keeps the newest `buffer_capacity` frames of the old history plus the new frame |
| `Looper.NewestOfNewest` | src/camera.py:192-195 | trimming to the newest window before adding more frames loses nothing the final window needs |
| `Looper.NewestStep` | src/camera.py:192-195 | the newest window of a history plus more frames is that of the history after adding the first of them, plus the rest |
| `Looper.AddFramesKeepsNewest` | src/camera.py:192-195 | after any run of `add_frame` calls the history is the newest `buffer_capacity` frames ever added, oldest first |
| `Looper.EvictsOldest` | src/camera.py:192-195 | after at least 30 additions to an empty history, it holds exactly the last 30 frames, in order |
| `Looper.Loop` | src/camera.py:199-214 | one pass never raises from a well-formed state and keeps it well formed; replay writes `buffer[cursor]`, reads nothing, keeps the history and advances the cursor; live writes the frame read and adds it only when gathering; the sleep `max(0, frame_delay - capture_delay)` is never negative and tops a read of at most one period up to exactly one period (details below) |
| `Looper.ReplayIgnoresCamera` | src/camera.py:200-204 | a replaying pass does not depend on the camera read or its duration |
| `Looper.RunKeepsWf` | src/camera.py:164-214 | under any interleaving of flag calls and passes nothing raises; the history stays within capacity and never shrinks; looping is only set on a full history |
| `Looper.LoopingOnlyWhenFull` | src/camera.py:170-184 | in every state reachable from the constructor, `is_looping` reads true only when the history holds exactly 30 frames |
| `Looper.LiveStep` | src/camera.py:205-214 | one live pass keeps the invariant; the history becomes the newest window with the read frame, or is untouched when not gathering |
| `Looper.LiveRunWrites` | src/camera.py:205-208 | over live passes, each pass writes exactly the frame it read, or nothing for `None`, and the cursor does not move |
| `Looper.LiveRunHistory` | src/camera.py:205-210 | after live passes the history is the newest window of the old history followed by every delivered frame, or unchanged when gathering is off |
| `Looper.ReplayRun` | src/camera.py:199-204 | over replaying passes, the `i`-th pass writes `buffer[(p + i) % 30]`; the history stays as it is and the cursor advances by one per pass |
| `Looper.ReplayCoversHistory` | src/camera.py:199-204 | 30 replaying passes write the whole history once, rotated to start at the cursor, and bring the cursor back to where it was |
| `Looper.PassTakesOnePeriod` | src/camera.py:204-214 | a pass whose read takes at most one frame period takes exactly one frame period, read plus sleep |
| `Looper.LoopManyCons` | src/camera.py:199-214 | a run of passes takes one frame period more than the run without its first pass |
| `Looper.Cadence` | src/camera.py:199-214 | when every read takes at most one frame period, `n` passes take exactly `n` frame periods, replaying or live |
| `Text.DigitSetInclusion` | meeting.py:11 | `set(s) <= set(string.digits)` holds exactly when every character of `s` is a decimal digit |
| `Text.AlnumSetInclusion` | meeting.py:19 | `set(s) <= set(string.ascii_letters + string.digits)` holds exactly when every character is an ASCII letter or digit |
| `Text.RemoveSpaces` | meeting.py:10 | `replace(" ", "")` leaves no space, and keeps the count of every other character |
| `Text.RemoveSpacesAppend` | meeting.py:10 | space removal works piecewise, so the surviving characters keep their order |
| `Text.RemoveSpacesNoSpace` | meeting.py:10 | a string without spaces is unchanged |
| `MeetingFormat.FormatMeetingId` | meeting.py:9-15 | succeeds exactly when the ID without spaces is non-empty and all digits, and returns that text; otherwise it fails with "Incorrect meeting ID format" exactly when a non-digit remains, and with "Meeting ID cannot be empty" exactly when nothing remains; meeting_ui.py:15-22 is the same code |
| `MeetingFormat.FormatPassword` | meeting.py:18-22 | returns the password unchanged exactly when it is ASCII letters and digits only, the empty password included; otherwise it fails with "Incorrect password format"; meeting_ui.py:24-29 is the same code |
| `MeetingFormat.FormatMeetingIdIdempotent` | meeting.py:9-15 | formatting a formatted ID gives it back unchanged |
| `MeetingFormat.FormattersAcceptValid` | meeting.py:9-22 | a valid ID and password pass both validators unchanged |
| `MeetingFormat.ShownFields` | meeting.py:37-38 | `__str__` keeps the `key value` parts of the non-empty fields only, ID before password |
| `MeetingFormat.Describe` | meeting.py:36-41 | a named meeting renders as its name, a space and the fields in parentheses; with ID and password both empty the text is empty, or `<name> ()` when named |
| `MeetingFormat.DescribeParts` | meeting.py:36-41 | `__str__` is `ID <id>`, then `, password <pw>` when the password is non-empty, wrapped as `<name> (...)` when the name is non-empty; meeting_ui.py:36-41 is the same code |
| `MeetingFormat.ParseInnerRoundTrip` | meeting.py:37-38 | the ID and password are read back exactly from the joined `ID ...`/`password ...` text |
| `MeetingFormat.InnerHasNoParen` | meeting.py:37-38 | the joined ID/password text of a valid meeting holds no `(` |
| `MeetingFormat.LastParenOpensInner` | meeting.py:40 | in `<name> (<inner>` the last `(` is the one the renderer added |
| `MeetingFormat.DescribeRoundTripUnnamed` | meeting.py:36-41 | without a name the ID and password are read back from the rendering |
| `MeetingFormat.WrappedSlices` | meeting.py:40 | the name and the inner text are recovered from the `%s (%s)` wrapping by position |
| `MeetingFormat.ParseWrapped` | meeting.py:39-40 | a name wrapped around text without `(` is split off again |
| `MeetingFormat.DescribeRoundTripNamed` | meeting.py:36-41 | with a name, the ID, the password and the name are all read back from the rendering, whatever the name holds |
| `MeetingFormat.DescribeRoundTrip` | meeting.py:36-41 | for a valid meeting `__str__` loses nothing: the ID, the password and the name are read back exactly |
| `MeetingFormat.DescribeInjective` | meeting.py:36-41 | two valid meetings that render alike agree on ID, password and name |
| `MeetingFormat.BuildAll` | meeting.py:62 | `[Meeting(*x) for x in tree]` succeeds exactly when every entry builds, giving the built meetings in order; otherwise it raises the error of the first entry that fails |
| `PyList.Position` | meeting.py:81-82 | an index addresses a list of length `n` exactly when `-n <= i < n`; a negative index counts from the end |
| `PyList.GetIndex` | meeting.py:81-82 | `get_index` succeeds exactly on an index in range and gives that element; otherwise it raises `IndexError`; meeting_ui.py:106-107 is the same code |
| `PyList.Append` | meeting.py:84-85 | `add_meeting` adds the meeting at the end and moves nothing before it |
| `PyList.ReplaceIndex` | meeting.py:87-88 | `replace_index` succeeds exactly on an index in range and changes only that position |
| `PyList.RemoveIndex` | meeting.py:90-91 | `remove_index` succeeds exactly on an index in range; it removes that element, keeps the rest in order, and keeps the same multiset less that element |
| `PyList.GetAfterReplace` | meeting.py:81-88 | reading a replaced position back gives the new meeting |
| `PyList.ReplaceWithOwnElement` | meeting.py:81-88 | writing an element back to the index it was read from leaves the list as it was |
| `PyList.RemoveLastUndoesAppend` | meeting.py:84-91 | `remove_index(-1)` undoes `add_meeting` |
| `Meetings.FromIsoFormat` | meeting.py:28-29 | `fromisoformat` reads the text `isoformat` wrote back to its timestamp; other text is accepted exactly when it is a form `fromisoformat` parses, such as a date alone, and gives the time it denotes; anything else raises `ValueError` |
| `Meetings.NewMeeting` | meeting.py:27-34 | construction succeeds exactly when both validators accept; the meeting then stores the spaceless ID, the password, the name and the time; otherwise the ID error comes first, then the password error |
| `Meetings.FromEntry` | meeting.py:27-34 | `Meeting(*x)` on a stored tuple parses the time first, so a time text `fromisoformat` rejects fails before the ID and password are checked; a parsed time is kept as the meeting's time |
| `Meetings.Save` | meeting.py:68-76 | `save` writes one four-field tuple per meeting, in list order |
| `Meetings.LoadFromFile` | meeting.py:55-66 | `load_from_file` gives `[]` when the file is missing, is not JSON, or holds a rejected entry; otherwise it gives the meetings the entries build, in order, all valid |
| `Meetings.DateOnlyEntryLoads` | meeting.py:28-31 | a stored tuple whose time is a date alone, which `fromisoformat` also parses, loads as the one meeting it describes |
| `Meetings.ToEntry` | meeting.py:24-25 | `tuple(m)` keeps the ID, password and name, and writes the time as text `fromisoformat` reads back to the same time |
| `Meetings.EntryRoundTrip` | meeting.py:24-34 | a constructed meeting survives `tuple(m)` and `Meeting(*x)` |
| `Meetings.SaveLoadRoundTrip` | meeting.py:55-76 | saving constructed meetings and loading the file gives back the same list |
| `Meetings.ToStringDeterminesFields` | meeting.py:36-41 | constructed meetings that print alike agree on everything but the start time |
| `Meetings.ListOperationsKeepValid` | meeting.py:81-91 | adding, replacing and removing by index keep every meeting in the list a constructed one |
| `MeetingsUi.NewMeeting` | meeting_ui.py:31-34 | construction succeeds exactly when both validators accept; the meeting then stores the spaceless ID, the password and the name; otherwise the ID error comes first |
| `MeetingsUi.FromEntry` | meeting_ui.py:91 | `Meeting(*x)` on a stored triple succeeds exactly when the ID without spaces is a non-empty digit string and the password is ASCII alphanumeric, and then gives a valid meeting holding the spaceless ID, the password and the name |
| `MeetingsUi.Save` | meeting_ui.py:93-101 | `save` writes the triple `(meeting_id, password, name)` per meeting, in list order |
| `MeetingsUi.LoadFromFile` | meeting_ui.py:84-91 | a missing file and bad JSON raise; otherwise loading succeeds exactly when every triple builds, giving valid meetings in order, and fails with the first rejected triple's error |
| `MeetingsUi.SaveLoadRoundTrip` | meeting_ui.py:84-101 | saving constructed meetings and loading the file gives back the same list |
| `MeetingsUi.ToStringInjective` | meeting_ui.py:36-41 | constructed meetings that print alike are the same meeting |
| `AutoJoin.JoinUrl` | meeting_join.py:7-10 | the URL `join_meeting` opens starts with `https://zoom.us/j/` and is followed by the meeting ID alone: what follows the prefix is exactly the ID |
| `AutoJoin.JoinUrlRoundTrip` | meeting_join.py:7-10 | the meeting ID is read back from the URL |
| `AutoJoin.OpenedUrls` | meeting_join.py:33-34 | one call opens one URL per joined meeting, in order, each naming its meeting |
| `AutoJoin.Due` | meeting_join.py:25-31 | the loop joins a meeting exactly when there was a previous check and `last_checked < t < now`; the first call joins nothing |
| `AutoJoin.DueAppend` | meeting_join.py:25-34 | joining works piecewise over the list, so joined meetings keep the list's order |
| `AutoJoin.Process` | meeting_join.py:21-36 | over naive times, `process` raises `AssertionError` exactly when `last_checked >= now`; otherwise it joins exactly the meetings due, in list order, and sets `last_checked` to `now`; the first call joins nothing |
| `AutoJoin.IncreasingCons` | meeting_join.py:23 | strictly increasing check times are a first step forward followed by strictly increasing times |
| `AutoJoin.RunSucceedsIffIncreasing` | meeting_join.py:23 | a run of calls raises no `AssertionError` exactly when the check times strictly increase |
| `AutoJoin.RunBatches` | meeting_join.py:21-36 | the `k`-th call of a run joins exactly the meetings due since the call before it, and the run leaves `last_checked` at the last check time |
| `AutoJoin.JoinedAtMostOnce` | meeting_join.py:23-36 | two different calls of a run never join the same meeting |
| `AutoJoin.JoinedOnlyBetweenChecks` | meeting_join.py:25-31 | a meeting a fresh run opens starts strictly between two consecutive checks, and at none of them |
| `AutoJoin.Bracket` | meeting_join.py:28-31 | a time strictly inside a run of check times, and at none of them, falls strictly between two consecutive ones |
| `AutoJoin.JoinedWhenBetweenChecks` | meeting_join.py:25-34 | a listed meeting that starts strictly between the first and last check, at none of them, is opened by some call |
| `AutoJoin.JoinedIffBetweenChecks` | meeting_join.py:21-36 | over a fresh run, a listed meeting is opened exactly when it starts strictly after the first check, strictly before the last, and at no check instant |

`Looper.Loop` states the following for one pass:
- a pass never raises from a well-formed state, and keeps that state well formed;
- a replaying pass writes `buffer[cursor]`, reads nothing, and leaves the history alone while the cursor moves on;
- a live pass writes the frame it read, or nothing for `None`, and adds that frame to the history only when gathering;
- the sleep is `max(0, frame_delay - capture_delay)`. It is never negative and at most one frame period, and it makes a read of at most one period up to exactly one period.

`get_gather` and `can_loop` are the field `canGather` and the predicate `CanLoop` themselves. `MeetingList()` starts from the empty list, `MeetingsUi.EmptyList`.

## Left out

- Device drivers: pygame capture (`init`, `read`'s frame conversion, `skip`, `release`), pyfakewebcam output and the numpy transposes are foreign calls. A read is an `Option<Frame>` parameter and a write is the frame a pass returns.
- `time.time` and `time.sleep`: the read's duration is a parameter, and the sleep is the value a pass returns. Reals are exact, so floating-point rounding of `1 / 15` is not modelled.
- The `threading.Lock` around the frame cache, and the worker thread, its running flag and mutexes in main.py. These are concurrency; the cache is modelled sequentially.
- `read_recent_frame`'s `copy()`: values are immutable here, so a copy is the frame itself.
- All Qt code (`MeetingEditDialog`, the meeting windows, the main window) and audio.py are user interface and mixer plumbing. The root camera.py is an earlier looper without a history or replay: its loop writes each frame and sleeps for what is left of the frame period after the write (camera.py:134-143). It times the write rather than the read, and it is not modelled.
- File I/O, `xdg` paths, `mkdir` and JSON text. The file is the `StoredFile` datatype, which is a missing file, malformed JSON, or a list of entries.
- Malformed stored entries are not modelled; every `Entry` has the right number of fields, each of the right kind. An entry of the wrong arity raises `TypeError` in `Meeting(*x)`. A non-string ID raises `AttributeError` at `meeting_id.replace` (meeting.py:10). `load_from_file` catches neither. A non-string time is not parsed, since meeting.py:28 only parses a `str`, so it loads as a meeting whose time is not a `datetime`.
- `datetime.isoformat` / `fromisoformat`: a stored time is `IsoOf(timestamp)` when it is `isoformat` output. Any other text is `OtherText(text, parsed)`, where `parsed` is the naive timestamp `fromisoformat` makes of it, or `None` when it raises. Text with a UTC offset, which `fromisoformat` reads as an aware datetime, is outside the model. Which texts parse, and to what, is a parameter; the date grammar itself is not modelled.
- `AutoJoin.Process`: all times are naive, as the application writes them. A stored time with a UTC offset loads as an aware datetime, and `process` then raises `TypeError` when it compares it with the naive `now` (meeting_join.py:28). That call never reaches line 36, so `last_checked` stays as it was. The model does not represent aware times. The `AssertionError` of meeting_join.py:23 is modelled as always raised, but Python run with `-O` strips `assert` statements and then does not raise it.
- `webbrowser.open` and logging: `OpenedUrls` gives the URLs that would be opened, in order.
- `__repr__` of `MeetingList` and of `RealCamera`, and `get_default_path`, are diagnostics and configuration paths.
- `Looper.Loop`: the `StopIteration` and `IndexError` outcomes exist only for states no sequence of calls reaches. Their content is not stated beyond `RunKeepsWf` ruling them out.

=== FILE: auto_join.dfy ===
/**
 meeting_join.py: `MeetingAutoJoin.process` is called periodically with the
 meeting list and the current time. It opens every meeting that started since
 the previous call, strictly after that call and strictly before this one, and
 joins nothing on its first call. The clock is a parameter, and opening the
 browser is modelled by the URLs `join_meeting` would open, in order.
 */
module AutoJoin {
  import opened Wrappers
  import opened Meetings

  /** `meeting_endpoint` without its `{meeting_id}` placeholder. */
  const MeetingEndpoint: string := "https://zoom.us/j/"

  /** The URL `join_meeting` opens. */
  function JoinUrl(m: Meeting): (url: string)
    ensures MeetingEndpoint <= url
    ensures |url| == |MeetingEndpoint| + |m.meetingId|
    ensures url[|MeetingEndpoint|..] == m.meetingId
  {
    MeetingEndpoint + m.meetingId
  }

  /** The meeting ID a join URL names, if it is one. */
  function MeetingIdOfUrl(url: string): Option<string> {
    if MeetingEndpoint <= url then Some(url[|MeetingEndpoint|..]) else None
  }

  /** The URL names the meeting it was built for. */
  lemma JoinUrlRoundTrip(m: Meeting)
    ensures MeetingIdOfUrl(JoinUrl(m)) == Some(m.meetingId)
  {
    assert JoinUrl(m)[|MeetingEndpoint|..] == m.meetingId;
  }

  /** `MeetingAutoJoin`: the time of the previous check, `None` before the first. */
  datatype AutoJoiner = AutoJoiner(lastChecked: Option<int>)

  const Initial: AutoJoiner := AutoJoiner(None)

  /** The `AssertionError` of `assert last_checked < now`. */
  datatype ClockError = ClockNotAdvanced

  datatype Processed = Processed(next: AutoJoiner, joined: seq<Meeting>)

  /** Whether a check at `now` following one at `lastChecked` joins `m`. */
  predicate DueIn(lastChecked: Option<int>, now: int, m: Meeting) {
    lastChecked.Some? && lastChecked.value < m.when < now
  }

  /** The meetings the loop of `process` joins, in list order. */
  function Due(lastChecked: Option<int>, now: int, meetings: seq<Meeting>): (joined: seq<Meeting>)
    ensures |joined| <= |meetings|
    ensures lastChecked.None? ==> joined == []
    ensures forall m :: m in joined <==> m in meetings && DueIn(lastChecked, now, m)
  {
    if meetings == [] then []
    else
      var m := meetings[0];
      var rest := Due(lastChecked, now, meetings[1..]);
      assert meetings == [m] + meetings[1..];
      if lastChecked.None? then rest
      else if lastChecked.value >= m.when then rest
      else if m.when >= now then rest
      else [m] + rest
  }

  /** Joining works piecewise over the list, so joined meetings keep the list's order. */
  lemma {:induction false} DueAppend(lastChecked: Option<int>, now: int, a: seq<Meeting>, b: seq<Meeting>)
    ensures Due(lastChecked, now, a + b) == Due(lastChecked, now, a) + Due(lastChecked, now, b)
  {
    if a == [] {
      assert a + b == b;
    } else {
      assert (a + b)[1..] == a[1..] + b;
      DueAppend(lastChecked, now, a[1..], b);
    }
  }

  /** `MeetingAutoJoin.process` at time `now`. */
  function Process(s: AutoJoiner, now: int, meetings: seq<Meeting>): (r: Result<Processed, ClockError>)
    ensures r.Failure? <==> s.lastChecked.Some? && s.lastChecked.value >= now
    ensures s.lastChecked.None? ==> r == Success(Processed(AutoJoiner(Some(now)), []))
    ensures r.Success? ==> r.value.next == AutoJoiner(Some(now))
    ensures r.Success? ==> r.value.joined == Due(s.lastChecked, now, meetings)
    ensures r.Success? ==> forall m :: m in r.value.joined <==> m in meetings && DueIn(s.lastChecked, now, m)
  {
    if s.lastChecked.Some? && !(s.lastChecked.value < now) then Failure(ClockNotAdvanced)
    else Success(Processed(AutoJoiner(Some(now)), Due(s.lastChecked, now, meetings)))
  }

  /** The URLs one call opens, one per joined meeting, in order. */
  function OpenedUrls(joined: seq<Meeting>): (urls: seq<string>)
    ensures |urls| == |joined|
    ensures forall i | 0 <= i < |joined| :: MeetingIdOfUrl(urls[i]) == Some(joined[i].meetingId)
  {
    seq(|joined|, i requires 0 <= i < |joined| => JoinUrlRoundTrip(joined[i]); JoinUrl(joined[i]))
  }

  /** Successive calls at the times `nows`: the joiner afterwards and what each call joined. */
  function Run(s: AutoJoiner, nows: seq<int>, meetings: seq<Meeting>): (r: Result<(AutoJoiner, seq<seq<Meeting>>), ClockError>)
    ensures r.Success? ==> |r.value.1| == |nows|
    decreases |nows|
  {
    if nows == [] then Success((s, []))
    else
      match Process(s, nows[0], meetings)
      case Failure(e) => Failure(e)
      case Success(p) =>
        match Run(p.next, nows[1..], meetings)
        case Failure(e) => Failure(e)
        case Success(rest) => Success((rest.0, [p.joined] + rest.1))
  }

  /** Check times that only go forward, starting after `lastChecked`. */
  predicate StrictlyIncreasing(lastChecked: Option<int>, nows: seq<int>) {
    && (forall i, j | 0 <= i < j < |nows| :: nows[i] < nows[j])
    && (lastChecked.Some? && |nows| > 0 ==> lastChecked.value < nows[0])
  }

  /** The check time preceding the `k`-th call of a run. */
  function Previous(lastChecked: Option<int>, nows: seq<int>, k: nat): Option<int>
    requires k < |nows|
  {
    if k == 0 then lastChecked else Some(nows[k - 1])
  }

  /** Strictly increasing check times are a first step forward followed by strictly increasing ones. */
  lemma IncreasingCons(lastChecked: Option<int>, nows: seq<int>)
    requires |nows| > 0
    ensures StrictlyIncreasing(lastChecked, nows) <==>
      (lastChecked.None? || lastChecked.value < nows[0]) && StrictlyIncreasing(Some(nows[0]), nows[1..])
  {
    var tail := nows[1..];
    if StrictlyIncreasing(lastChecked, nows) {
      forall i, j | 0 <= i < j < |tail| ensures tail[i] < tail[j] {
        assert tail[i] == nows[i + 1] && tail[j] == nows[j + 1];
      }
    }
    if (lastChecked.None? || lastChecked.value < nows[0]) && StrictlyIncreasing(Some(nows[0]), tail) {
      forall i, j | 0 <= i < j < |nows| ensures nows[i] < nows[j] {
        assert nows[j] == tail[j - 1];
        if i > 0 {
          assert nows[i] == tail[i - 1];
        }
      }
    }
  }

  /** A run raises no `AssertionError` exactly when the clock moves strictly forward. */
  lemma {:induction false} RunSucceedsIffIncreasing(s: AutoJoiner, nows: seq<int>, meetings: seq<Meeting>)
    ensures Run(s, nows, meetings).Success? <==> StrictlyIncreasing(s.lastChecked, nows)
    decreases |nows|
  {
    if nows != [] {
      RunSucceedsIffIncreasing(AutoJoiner(Some(nows[0])), nows[1..], meetings);
      IncreasingCons(s.lastChecked, nows);
    }
  }

  /** The `k`-th call of a successful run joins exactly the meetings due since the call before it. */
  lemma {:induction false} RunBatches(s: AutoJoiner, nows: seq<int>, meetings: seq<Meeting>)
    requires Run(s, nows, meetings).Success?
    ensures var batches := Run(s, nows, meetings).value.1;
      && |batches| == |nows|
      && forall k | 0 <= k < |nows| :: batches[k] == Due(Previous(s.lastChecked, nows, k), nows[k], meetings)
    ensures |nows| > 0 ==> Run(s, nows, meetings).value.0 == AutoJoiner(Some(nows[|nows| - 1]))
    decreases |nows|
  {
    if nows != [] {
      var p := Process(s, nows[0], meetings).value;
      RunBatches(p.next, nows[1..], meetings);
      var batches := Run(s, nows, meetings).value.1;
      forall k | 0 < k < |nows|
        ensures batches[k] == Due(Previous(s.lastChecked, nows, k), nows[k], meetings)
      {
        assert batches[k] == Run(p.next, nows[1..], meetings).value.1[k - 1];
        assert Previous(p.next.lastChecked, nows[1..], k - 1) == Some(nows[k - 1]);
      }
    }
  }

  /** Two different calls of a run never join the same meeting: each meeting is opened at most once. */
  lemma JoinedAtMostOnce(s: AutoJoiner, nows: seq<int>, meetings: seq<Meeting>, i: nat, j: nat, m: Meeting)
    requires Run(s, nows, meetings).Success?
    requires i < j < |nows|
    requires m in Run(s, nows, meetings).value.1[i]
    ensures m !in Run(s, nows, meetings).value.1[j]
  {
    RunSucceedsIffIncreasing(s, nows, meetings);
    RunBatches(s, nows, meetings);
    assert m.when < nows[i];
    if i < j - 1 {
      assert nows[i] < nows[j - 1];
    }
  }

  /** A meeting a fresh run opens starts strictly between two consecutive checks. */
  lemma JoinedOnlyBetweenChecks(nows: seq<int>, meetings: seq<Meeting>, m: Meeting, k: nat)
    requires Run(Initial, nows, meetings).Success?
    requires k < |nows| && m in Run(Initial, nows, meetings).value.1[k]
    ensures 0 < k && nows[k - 1] < m.when < nows[k]
    ensures nows[0] < m.when < nows[|nows| - 1] && m.when !in nows
  {
    RunSucceedsIffIncreasing(Initial, nows, meetings);
    RunBatches(Initial, nows, meetings);
    assert nows[0] <= nows[k - 1] && nows[k] <= nows[|nows| - 1];
  }

  /** A meeting strictly between the first and last check, and at none of them, is opened by some call. */
  lemma JoinedWhenBetweenChecks(nows: seq<int>, meetings: seq<Meeting>, m: Meeting) returns (k: nat)
    requires Run(Initial, nows, meetings).Success?
    requires m in meetings
    requires |nows| > 0 && nows[0] < m.when < nows[|nows| - 1] && m.when !in nows
    ensures k < |nows| && m in Run(Initial, nows, meetings).value.1[k]
  {
    RunBatches(Initial, nows, meetings);
    k := Bracket(nows, m.when);
  }

  /**
   Over a run started fresh, a meeting is opened exactly when it starts strictly
   after the first check and strictly before the last, and not at a check instant.
   */
  lemma JoinedIffBetweenChecks(nows: seq<int>, meetings: seq<Meeting>, m: Meeting)
    requires Run(Initial, nows, meetings).Success?
    requires m in meetings
    ensures (exists k | 0 <= k < |nows| :: m in Run(Initial, nows, meetings).value.1[k])
      <==> |nows| > 0 && nows[0] < m.when < nows[|nows| - 1] && m.when !in nows
  {
    var batches := Run(Initial, nows, meetings).value.1;
    if k :| 0 <= k < |nows| && m in batches[k] {
      JoinedOnlyBetweenChecks(nows, meetings, m, k);
    }
    if |nows| > 0 && nows[0] < m.when < nows[|nows| - 1] && m.when !in nows {
      var k := JoinedWhenBetweenChecks(nows, meetings, m);
    }
  }

  /** A time strictly inside a run of check times and at none of them falls between two consecutive ones. */
  lemma {:induction false} Bracket(nows: seq<int>, t: int) returns (k: nat)
    requires |nows| > 0 && nows[0] < t < nows[|nows| - 1] && t !in nows
    ensures 0 < k < |nows| && nows[k - 1] < t < nows[k]
    decreases |nows|
  {
    if t < nows[1] {
      k := 1;
    } else {
      assert t != nows[1];
      assert t !in nows[1..];
      var k' := Bracket(nows[1..], t);
      k := k' + 1;
    }
  }
}

=== FILE: cycle.dfy ===
/**
 `iter(CycleLoop(n))` in src/camera.py, that is `itertools.cycle(range(n))`: an
 endless iterator over `0, 1, ..., n-1, 0, 1, ...`, represented by the value it
 yields next. On an empty range the first `next` raises `StopIteration`.
 */
module Cycle {
  import opened Wrappers

  datatype CycleLoop = CycleLoop(n: nat, pos: nat)

  /** A fresh iterator over `range(n)`. */
  function Start(n: nat): (c: CycleLoop)
    ensures Valid(c) && c.n == n
    ensures c.pos == 0
  {
    CycleLoop(n, 0)
  }

  /** The position is a value of `range(n)`, or the range is empty. */
  predicate Valid(c: CycleLoop) {
    c.pos < c.n || c.pos == 0
  }

  /** `next(it)`: the value yielded and the advanced iterator. */
  function Next(c: CycleLoop): (r: Option<(nat, CycleLoop)>)
    ensures r.None? <==> c.n == 0
    ensures r.Some? ==> r.value.0 == c.pos
    ensures r.Some? && Valid(c) ==> r.value.0 < c.n && Valid(r.value.1) && r.value.1.n == c.n
    ensures r.Some? && Valid(c) ==> r.value.1.pos == (r.value.0 + 1) % c.n
  {
    if c.n == 0 then None
    else Some((c.pos, CycleLoop(c.n, if c.pos + 1 < c.n then c.pos + 1 else 0)))
  }

  /** The iterator after `k` calls of `next` on a non-empty range. */
  function Advance(c: CycleLoop, k: nat): CycleLoop
    requires c.n > 0
    decreases k
  {
    if k == 0 then c else Advance(Next(c).value.1, k - 1)
  }

  /** The `k` values `k` calls of `next` yield. */
  function Take(c: CycleLoop, k: nat): (values: seq<nat>)
    requires c.n > 0
    ensures |values| == k
    ensures Valid(c) ==> forall i | 0 <= i < k :: values[i] < c.n
    decreases k
  {
    if k == 0 then [] else [c.pos] + Take(Next(c).value.1, k - 1)
  }

  lemma {:induction false} MulAtLeast(d: int, n: int)
    requires d >= 1 && n >= 0
    ensures d * n >= n
    decreases d
  {
    if d > 1 {
      MulAtLeast(d - 1, n);
      assert d * n == (d - 1) * n + n;
    }
  }

  /** Euclidean division has one remainder. */
  lemma ModUnique(x: int, n: int, q: int, r: int)
    requires n > 0 && 0 <= r < n && x == q * n + r
    ensures x % n == r
  {
    var q', r' := x / n, x % n;
    assert x == q' * n + r';
    assert q * n - q' * n == (q - q') * n;
    if q' < q {
      MulAtLeast(q - q', n);
    } else if q' > q {
      MulAtLeast(q' - q, n);
    }
  }

  lemma ModStep(p: nat, i: nat, n: nat)
    requires p < n
    ensures ((p + 1) % n + i) % n == (p + 1 + i) % n
  {
    if p + 1 == n {
      ModUnique(p + 1, n, 1, 0);
      ModUnique(n + i, n, i / n + 1, i % n);
    } else {
      ModUnique(p + 1, n, 0, p + 1);
    }
  }

  /** `k` calls of `next` from position `p` leave the iterator at `(p + k) % n`. */
  lemma {:induction false} AdvanceIsCyclic(c: CycleLoop, k: nat)
    requires c.n > 0 && Valid(c)
    ensures Advance(c, k) == CycleLoop(c.n, (c.pos + k) % c.n)
    decreases k
  {
    if k > 0 {
      AdvanceIsCyclic(Next(c).value.1, k - 1);
      ModStep(c.pos, k - 1, c.n);
    } else {
      ModUnique(c.pos, c.n, 0, c.pos);
    }
  }

  /** The `i`-th value yielded from position `p` is `(p + i) % n`: the values run on across calls. */
  lemma {:induction false} TakeIsCyclic(c: CycleLoop, k: nat, i: nat)
    requires c.n > 0 && Valid(c)
    requires i < k
    ensures Take(c, k)[i] == (c.pos + i) % c.n
    decreases k
  {
    if i > 0 {
      var c' := Next(c).value.1;
      assert Take(c, k)[i] == Take(c', k - 1)[i - 1];
      TakeIsCyclic(c', k - 1, i - 1);
      ModStep(c.pos, i - 1, c.n);
    } else {
      ModUnique(c.pos, c.n, 0, c.pos);
    }
  }

  /** `range(lo, hi)` as a sequence. */
  function Range(lo: nat, hi: nat): (r: seq<nat>)
    requires lo <= hi
    ensures |r| == hi - lo && forall i | 0 <= i < |r| :: r[i] == lo + i
  {
    seq(hi - lo, i requires 0 <= i < hi - lo => lo + i)
  }

  /** The `i`-th of `n` consecutive values from position `p` is the `i`-th of `p, ..., n-1, 0, ..., p-1`. */
  lemma FullRoundAt(c: CycleLoop, i: nat)
    requires c.n > 0 && Valid(c) && i < c.n
    ensures Take(c, c.n)[i] == (Range(c.pos, c.n) + Range(0, c.pos))[i]
  {
    var n, p := c.n, c.pos;
    TakeWraps(c, n, i);
    if i < n - p {
      assert (Range(p, n) + Range(0, p))[i] == Range(p, n)[i];
    } else {
      assert (Range(p, n) + Range(0, p))[i] == Range(0, p)[i - (n - p)];
    }
  }

  /** Within one round the value yielded is the position counted on, less `n` once it passes the end. */
  lemma {:induction false} TakeWraps(c: CycleLoop, k: nat, i: nat)
    requires c.n > 0 && Valid(c) && i < k && i < c.n
    ensures Take(c, k)[i] == if c.pos + i < c.n then c.pos + i else c.pos + i - c.n
    decreases i
  {
    if i > 0 {
      var c' := Next(c).value.1;
      assert Take(c, k)[i] == Take(c', k - 1)[i - 1];
      TakeWraps(c', k - 1, i - 1);
    }
  }

  /** Within one round the iterator stands at the position counted on, less `n` once it passes the end. */
  lemma {:induction false} AdvanceWraps(c: CycleLoop, k: nat)
    requires c.n > 0 && Valid(c) && k <= c.n
    ensures Advance(c, k) == CycleLoop(c.n, if c.pos + k < c.n then c.pos + k else c.pos + k - c.n)
    decreases k
  {
    if k > 0 {
      AdvanceWraps(Next(c).value.1, k - 1);
    }
  }

  /** `n` consecutive values yield every value of the range exactly once, starting where the iterator stands. */
  lemma FullRound(c: CycleLoop)
    requires c.n > 0 && Valid(c)
    ensures Take(c, c.n) == Range(c.pos, c.n) + Range(0, c.pos)
    ensures Advance(c, c.n) == c
  {
    AdvanceWraps(c, c.n);
    forall i | 0 <= i < c.n ensures Take(c, c.n)[i] == (Range(c.pos, c.n) + Range(0, c.pos))[i] {
      FullRoundAt(c, i);
    }
  }
}

=== FILE: devices.dfy ===
/**
 `RealCamera` and `OutputCamera` in src/camera.py, without the drivers: the
 filtering of the listed capture devices, the choice of a default one, and the
 single-slot cache of the most recent frame behind `read_recent_frame`. Device
 listing and frame capture are parameters.
 */
module Devices {
  import opened Wrappers

  /** `OutputCamera.get_default_device()`: the virtual device frames are written to. */
  const FakeDeviceId: string := "/dev/video2"

  /** `ValueError("No camera available")` */
  datatype DeviceError = NoCameraAvailable

  /** `RealCamera.get_devices`: the listed cameras other than the virtual output device. */
  function GetDevices(listed: seq<string>): (r: seq<string>)
    ensures |r| <= |listed|
    ensures forall d :: d in r <==> d in listed && d != FakeDeviceId
    decreases |listed|
  {
    if listed == [] then []
    else (if listed[0] != FakeDeviceId then [listed[0]] else []) + GetDevices(listed[1..])
  }

  /** Filtering works piecewise over the list, so the cameras kept stay in their listed order. */
  lemma {:induction false} GetDevicesAppend(a: seq<string>, b: seq<string>)
    ensures GetDevices(a + b) == GetDevices(a) + GetDevices(b)
    decreases |a|
  {
    if a == [] {
      assert a + b == b;
    } else {
      assert (a + b)[1..] == a[1..] + b;
      GetDevicesAppend(a[1..], b);
    }
  }

  /** Without the virtual device among them, every listed camera is kept as listed. */
  lemma {:induction false} GetDevicesWithoutFake(listed: seq<string>)
    requires FakeDeviceId !in listed
    ensures GetDevices(listed) == listed
    decreases |listed|
  {
    if listed != [] {
      assert FakeDeviceId !in listed[1..];
      GetDevicesWithoutFake(listed[1..]);
    }
  }

  /** `RealCamera.get_default_device`: the first listed camera that is not the virtual output device. */
  function GetDefaultDevice(listed: seq<string>): (r: Result<string, DeviceError>)
    ensures r.Failure? <==> forall i | 0 <= i < |listed| :: listed[i] == FakeDeviceId
    ensures r.Success? ==> exists k | 0 <= k < |listed| ::
      && listed[k] == r.value
      && r.value != FakeDeviceId
      && forall j | 0 <= j < k :: listed[j] == FakeDeviceId
  {
    var devices := GetDevices(listed);
    if |devices| == 0 then
      assert forall i | 0 <= i < |listed| :: listed[i] == FakeDeviceId by {
        forall i | 0 <= i < |listed| ensures listed[i] == FakeDeviceId {
          assert listed[i] in listed;
        }
      }
      Failure(NoCameraAvailable)
    else
      assert devices[0] in devices;
      FirstKept(listed);
      ghost var k :| 0 <= k < |listed| && listed[k] == devices[0] && forall j | 0 <= j < k :: listed[j] == FakeDeviceId;
      assert listed[k] != FakeDeviceId;
      Success(devices[0])
  }

  /** The first camera kept is the first listed one that is not the virtual device. */
  lemma {:induction false} FirstKept(listed: seq<string>)
    requires |GetDevices(listed)| > 0
    ensures exists k | 0 <= k < |listed| ::
      && listed[k] == GetDevices(listed)[0]
      && forall j | 0 <= j < k :: listed[j] == FakeDeviceId
    decreases |listed|
  {
    if listed[0] == FakeDeviceId {
      FirstKept(listed[1..]);
      var k :| 0 <= k < |listed[1..]| && listed[1..][k] == GetDevices(listed[1..])[0]
        && forall j | 0 <= j < k :: listed[1..][j] == FakeDeviceId;
      assert listed[k + 1] == GetDevices(listed)[0];
      assert forall j | 0 <= j < k + 1 :: listed[j] == FakeDeviceId by {
        forall j | 0 <= j < k + 1 ensures listed[j] == FakeDeviceId {
          if j > 0 {
            assert listed[j] == listed[1..][j - 1];
          }
        }
      }
    } else {
      assert listed[0] == GetDevices(listed)[0];
    }
  }

  /** A capture device with its most-recent-frame cache (`last_frame`). */
  datatype RealCamera<Frame> = RealCamera(deviceId: string, lastFrame: Option<Frame>)

  /** `RealCamera(device_id)`: nothing captured yet. */
  function NewRealCamera<Frame>(deviceId: string): (cam: RealCamera<Frame>)
    ensures cam.deviceId == deviceId && ReadRecentFrame(cam).None?
  {
    RealCamera(deviceId, None)
  }

  /** `read()`: returns the captured frame and remembers it as the most recent one. */
  function Read<Frame>(cam: RealCamera<Frame>, captured: Frame): (r: (RealCamera<Frame>, Frame))
    ensures r.1 == captured
    ensures ReadRecentFrame(r.0) == Some(captured)
    ensures r.0.deviceId == cam.deviceId
  {
    (cam.(lastFrame := Some(captured)), captured)
  }

  /** `read_recent_frame()`: a copy of the most recent frame, `None` before the first read. */
  function ReadRecentFrame<Frame>(cam: RealCamera<Frame>): (r: Option<Frame>)
    ensures r.None? <==> cam.lastFrame.None?
    ensures r.Some? ==> r.value == cam.lastFrame.value
  {
    cam.lastFrame
  }

  /** `read()` on each captured frame in turn. */
  function ReadAll<Frame>(cam: RealCamera<Frame>, captured: seq<Frame>): RealCamera<Frame>
    decreases |captured|
  {
    if captured == [] then cam else ReadAll(Read(cam, captured[0]).0, captured[1..])
  }

  /** After any reads, the cached frame is the one the last read returned, or nothing if there was none. */
  lemma {:induction false} RecentFrameIsLastRead<Frame>(deviceId: string, captured: seq<Frame>)
    ensures ReadRecentFrame(ReadAll(NewRealCamera<Frame>(deviceId), captured)) ==
      if captured == [] then None else Some(captured[|captured| - 1])
  {
    ReadsKeepLast(NewRealCamera<Frame>(deviceId), captured);
  }

  lemma {:induction false} ReadsKeepLast<Frame>(cam: RealCamera<Frame>, captured: seq<Frame>)
    ensures ReadRecentFrame(ReadAll(cam, captured)) ==
      if captured == [] then ReadRecentFrame(cam) else Some(captured[|captured| - 1])
    decreases |captured|
  {
    if captured != [] {
      ReadsKeepLast(Read(cam, captured[0]).0, captured[1..]);
    }
  }
}

=== FILE: looper.dfy ===
/**
 `VideoLooper` in src/camera.py: a frame loop that either relays live frames
 from the input camera to the output camera, keeping the most recent ones in a
 bounded history, or replays that history in a cycle. The state is an immutable
 record and one pass of `loop()` is the pure function `Loop`. The live read, its
 measured duration and the frame written are parameters and results; time is
 in seconds as exact reals.
 */
module Looper {
  import opened Wrappers
  import Cycle

  /** `VideoLooper.num_seconds` */
  const NumSeconds: int := 2

  /** `VideoLooper.fps` */
  const Fps: real := 15.0

  /** `VideoLooper.frame_delay`: one frame period, `1 / fps`. */
  const FrameDelay: real := 1.0 / 15.0

  /** The frame period is the reciprocal of the frame rate. */
  lemma FrameDelayIsPeriod()
    ensures FrameDelay == 1.0 / Fps
    ensures FrameDelay * Fps == 1.0
  {
  }

  /** `math.ceil` */
  function Ceil(x: real): (r: int)
    ensures x <= r as real < x + 1.0
  {
    -((-x).Floor)
  }

  /** `VideoLooper.buffer_capacity`: two seconds of frames. */
  const BufferCapacity: nat := 30

  /** The capacity is the source's `math.ceil(fps * num_seconds)`. */
  lemma BufferCapacityIsWindow()
    ensures BufferCapacity == Ceil(Fps * NumSeconds as real)
  {
  }

  datatype VideoLooper<Frame> = VideoLooper(
    buffer: seq<Frame>,         // the frame history, oldest first
    canGather: bool,            // `_can_gather`: live frames are added to the history
    looping: bool,              // `_looping`: replay the history instead of relaying live frames
    generator: Cycle.CycleLoop  // `_generator`: the replay cursor
  )

  /** `VideoLooper(input_camera, output_camera)` */
  function NewLooper<Frame>(): (s: VideoLooper<Frame>)
    ensures Wf(s)
    ensures s.buffer == [] && s.canGather && !s.looping && s.generator.pos == 0
  {
    VideoLooper([], true, false, Cycle.Start(BufferCapacity))
  }

  /** The invariant every reachable state keeps. */
  predicate Wf<Frame>(s: VideoLooper<Frame>) {
    && |s.buffer| <= BufferCapacity
    && CursorOk(s)
    && (s.looping ==> CanLoop(s))
  }

  /** The replay cursor cycles over `range(buffer_capacity)`. */
  predicate CursorOk<Frame>(s: VideoLooper<Frame>) {
    s.generator.n == BufferCapacity && Cycle.Valid(s.generator)
  }

  /** `can_loop`: the history holds a full window. */
  predicate CanLoop<Frame>(s: VideoLooper<Frame>) {
    |s.buffer| >= BufferCapacity
  }

  /** `can_gather = value` */
  function SetGather<Frame>(s: VideoLooper<Frame>, value: bool): (r: VideoLooper<Frame>)
    ensures r.canGather == value
    ensures r.buffer == s.buffer && r.looping == s.looping && r.generator == s.generator
  {
    s.(canGather := value)
  }

  /** Reading `is_looping`: the flag, cleared first when the history is not full. */
  function GetLooping<Frame>(s: VideoLooper<Frame>): (r: (bool, VideoLooper<Frame>))
    ensures r.0 ==> CanLoop(s)
    ensures r.0 <==> s.looping && CanLoop(s)
    ensures r.1.looping == r.0
    ensures r.1.buffer == s.buffer && r.1.canGather == s.canGather && r.1.generator == s.generator
  {
    var looping := if !CanLoop(s) then false else s.looping;
    (looping, s.(looping := looping))
  }

  /** `is_looping = value`: a request to loop on a history that is not full is dropped. */
  function SetLooping<Frame>(s: VideoLooper<Frame>, value: bool): (r: VideoLooper<Frame>)
    ensures r.looping <==> value && CanLoop(s)
    ensures !CanLoop(s) ==> !r.looping
    ensures !value ==> !r.looping
    ensures r.buffer == s.buffer && r.canGather == s.canGather && r.generator == s.generator
  {
    s.(looping := value && CanLoop(s))
  }

  /** `add_frame`: append, then drop the oldest frame once over capacity. */
  function AddFrame<Frame>(buffer: seq<Frame>, frame: Frame): (r: seq<Frame>)
    ensures |buffer| <= BufferCapacity ==> |r| <= BufferCapacity
    ensures |r| >= |buffer| && |r| > 0 && r[|r| - 1] == frame
    ensures |buffer| < BufferCapacity ==> r == buffer + [frame]
    ensures |buffer| == BufferCapacity ==> r == buffer[1..] + [frame]
  {
    var appended := buffer + [frame];
    if |appended| > BufferCapacity then appended[1..] else appended
  }

  /** The newest `BufferCapacity` frames of `frames`, in order. */
  function Newest<Frame>(frames: seq<Frame>): (r: seq<Frame>)
    ensures |r| == (if |frames| <= BufferCapacity then |frames| else BufferCapacity)
    ensures r == frames[|frames| - |r|..]
  {
    if |frames| <= BufferCapacity then frames else frames[|frames| - BufferCapacity..]
  }

  /** `add_frame` called on each of `frames` in turn. */
  function AddFrames<Frame>(buffer: seq<Frame>, frames: seq<Frame>): seq<Frame>
    decreases |frames|
  {
    if frames == [] then buffer else AddFrames(AddFrame(buffer, frames[0]), frames[1..])
  }

  lemma NewestOfNewest<Frame>(frames: seq<Frame>, more: seq<Frame>)
    ensures Newest(Newest(frames) + more) == Newest(frames + more)
  {
    var all := frames + more;
    if |frames| > BufferCapacity {
      var cut := |frames| - BufferCapacity;
      var kept := Newest(frames) + more;
      assert kept == all[cut..];
      assert |kept| == BufferCapacity + |more|;
      if more == [] {
        assert all == frames;
      } else {
        assert Newest(kept) == kept[|more|..];
        assert kept[|more|..] == all[|all| - BufferCapacity..];
      }
    }
  }

  /**
   However many frames are added, the history is the newest `BufferCapacity` of
   all frames ever added, oldest first: the oldest frame is the one evicted.
   */
  lemma {:induction false} AddFramesKeepsNewest<Frame>(buffer: seq<Frame>, frames: seq<Frame>)
    requires |buffer| <= BufferCapacity
    ensures AddFrames(buffer, frames) == Newest(buffer + frames)
    decreases |frames|
  {
    if frames == [] {
      assert buffer + frames == buffer;
    } else {
      NewestStep(buffer, frames);
      AddFramesKeepsNewest(AddFrame(buffer, frames[0]), frames[1..]);
    }
  }

  /** Keeping the newest frames of a history plus more frames is the same as adding the first of them and then the rest. */
  lemma NewestStep<Frame>(buffer: seq<Frame>, frames: seq<Frame>)
    requires |buffer| <= BufferCapacity && frames != []
    ensures Newest(buffer + frames) == Newest(AddFrame(buffer, frames[0]) + frames[1..])
  {
    var first := buffer + [frames[0]];
    AddFrameIsNewest(buffer, frames[0]);
    NewestOfNewest(first, frames[1..]);
    assert first + frames[1..] == buffer + frames;
  }

  lemma AddFrameIsNewest<Frame>(buffer: seq<Frame>, frame: Frame)
    requires |buffer| <= BufferCapacity
    ensures AddFrame(buffer, frame) == Newest(buffer + [frame])
  {
  }

  /** From an empty history, adding at least a window of frames keeps exactly the last window. */
  lemma EvictsOldest<Frame>(frames: seq<Frame>)
    requires |frames| >= BufferCapacity
    ensures AddFrames([], frames) == frames[|frames| - BufferCapacity..]
    ensures |AddFrames([], frames)| == BufferCapacity
  {
    var empty: seq<Frame> := [];
    assert AddFrames(empty, frames) == Newest(frames) by {
      AddFramesKeepsNewest(empty, frames);
      assert empty + frames == frames;
    }
  }

  /** What one pass of `loop()` did: the next state, the frame written, whether the camera was read, the sleep. */
  datatype Tick<Frame> = Tick(next: VideoLooper<Frame>, written: Option<Frame>, captured: bool, sleep: real)

  /** The exceptions a pass can raise on a state no sequence of calls reaches. */
  datatype LoopError = StopIteration | IndexError

  function Max(a: real, b: real): real {
    if a >= b then a else b
  }

  /**
   `loop()`: one pass. `live` is what `input_camera.read()` would return and
   `captureDelay` how long it took; both are ignored when replaying.
   */
  function Loop<Frame>(s: VideoLooper<Frame>, live: Option<Frame>, captureDelay: real): (r: Result<Tick<Frame>, LoopError>)
    ensures CursorOk(s) ==> r.Success?
    ensures Wf(s) ==> r.Success? && Wf(r.value.next)
    ensures r.Success? ==> r.value.sleep >= 0.0
    ensures r.Success? ==> |r.value.next.buffer| >= |s.buffer| && r.value.next.canGather == s.canGather
    // Replay: the cursor's frame is written, nothing is read, the history is untouched.
    ensures CursorOk(s) && s.looping && CanLoop(s) ==>
      && r.value.written == Some(s.buffer[s.generator.pos])
      && !r.value.captured
      && r.value.next.buffer == s.buffer
      && r.value.next.looping
      && r.value.next.generator == Cycle.Next(s.generator).value.1
      && r.value.sleep == FrameDelay
    // Live: the read frame, if any, is written and gathered; the cursor stays put.
    ensures !(s.looping && CanLoop(s)) ==>
      && r.Success?
      && r.value.written == live
      && r.value.captured
      && !r.value.next.looping
      && r.value.next.generator == s.generator
      && r.value.next.buffer == (if live.Some? && s.canGather then AddFrame(s.buffer, live.value) else s.buffer)
    // The sleep makes up the rest of the frame period after a live read.
    ensures !(s.looping && CanLoop(s)) && 0.0 <= captureDelay <= FrameDelay ==>
      captureDelay + r.value.sleep == FrameDelay
    ensures !(s.looping && CanLoop(s)) && captureDelay >= FrameDelay ==> r.value.sleep == 0.0
    ensures r.Success? && captureDelay >= 0.0 ==> r.value.sleep <= FrameDelay
  {
    var (looping, s1) := GetLooping(s);
    if looping then
      match Cycle.Next(s1.generator)
      case None => Failure(StopIteration)
      case Some((frameIndex, generator)) =>
        if frameIndex < |s1.buffer| then
          Success(Tick(s1.(generator := generator), Some(s1.buffer[frameIndex]), false, FrameDelay))
        else
          Failure(IndexError)
    else
      var s2 := if live.Some? && s1.canGather then s1.(buffer := AddFrame(s1.buffer, live.value)) else s1;
      Success(Tick(s2, live, true, Max(0.0, FrameDelay - captureDelay)))
  }

  /** A replaying pass does not depend on the camera. */
  lemma ReplayIgnoresCamera<Frame>(s: VideoLooper<Frame>, live1: Option<Frame>, delay1: real, live2: Option<Frame>, delay2: real)
    requires s.looping && CanLoop(s)
    ensures Loop(s, live1, delay1) == Loop(s, live2, delay2)
  {
  }

  /** A control call made by the surrounding application, or one pass of the loop. */
  datatype Event<Frame> =
    | SetGatherTo(gather: bool)
    | SetLoopingTo(looping: bool)
    | ReadLooping
    | LoopOnce(live: Option<Frame>, captureDelay: real)

  function Apply<Frame>(s: VideoLooper<Frame>, e: Event<Frame>): Result<VideoLooper<Frame>, LoopError> {
    match e
    case SetGatherTo(v) => Success(SetGather(s, v))
    case SetLoopingTo(v) => Success(SetLooping(s, v))
    case ReadLooping => Success(GetLooping(s).1)
    case LoopOnce(live, d) =>
      match Loop(s, live, d)
      case Failure(err) => Failure(err)
      case Success(t) => Success(t.next)
  }

  function Run<Frame>(s: VideoLooper<Frame>, events: seq<Event<Frame>>): Result<VideoLooper<Frame>, LoopError>
    decreases |events|
  {
    if events == [] then Success(s)
    else
      match Apply(s, events[0])
      case Failure(err) => Failure(err)
      case Success(s') => Run(s', events[1..])
  }

  /**
   Under any interleaving of control calls and passes, the loop never raises, the
   history never exceeds capacity nor shrinks, and the looping flag is only ever
   set on a full history.
   */
  lemma {:induction false} RunKeepsWf<Frame>(s: VideoLooper<Frame>, events: seq<Event<Frame>>)
    requires Wf(s)
    ensures Run(s, events).Success?
    ensures Wf(Run(s, events).value)
    ensures |Run(s, events).value.buffer| >= |s.buffer|
    decreases |events|
  {
    if events != [] {
      var s' := Apply(s, events[0]).value;
      RunKeepsWf(s', events[1..]);
    }
  }

  /** Reading `is_looping` never gives true while `can_loop` is false, in any reachable state. */
  lemma LoopingOnlyWhenFull<Frame>(events: seq<Event<Frame>>)
    ensures Run(NewLooper<Frame>(), events).Success?
    ensures var s := Run(NewLooper<Frame>(), events).value;
      GetLooping(s).0 ==> CanLoop(s) && |s.buffer| == BufferCapacity
  {
    RunKeepsWf(NewLooper<Frame>(), events);
  }

  /** Requesting loop on and then off leaves the history and the cursor as they were. */
  lemma LoopOnOffKeepsHistory<Frame>(s: VideoLooper<Frame>)
    ensures var r := SetLooping(SetLooping(s, true), false);
      r.buffer == s.buffer && r.generator == s.generator && !r.looping
  {
  }

  /** Several passes, each given its camera read and read duration. */
  function LoopMany<Frame>(s: VideoLooper<Frame>, captures: seq<(Option<Frame>, real)>): (r: Result<(VideoLooper<Frame>, seq<Option<Frame>>, real), LoopError>)
    ensures r.Success? ==> |r.value.1| == |captures|
    decreases |captures|
  {
    if captures == [] then Success((s, [], 0.0))
    else
      match Loop(s, captures[0].0, captures[0].1)
      case Failure(err) => Failure(err)
      case Success(t) =>
        match LoopMany(t.next, captures[1..])
        case Failure(err) => Failure(err)
        case Success(rest) =>
          var elapsed := (if t.captured then captures[0].1 else 0.0) + t.sleep;
          Success((rest.0, [t.written] + rest.1, elapsed + rest.2))
  }

  /** The frames a sequence of camera captures delivered, `None`s skipped. */
  function Delivered<Frame>(captures: seq<(Option<Frame>, real)>): seq<Frame>
    decreases |captures|
  {
    if captures == [] then []
    else (if captures[0].0.Some? then [captures[0].0.value] else []) + Delivered(captures[1..])
  }

  /** Concatenation regrouped, kept out of the larger proofs that need it. */
  lemma SeqAssoc<T>(a: seq<T>, b: seq<T>, c: seq<T>)
    ensures a + b + c == a + (b + c)
  {
  }

  /** One live pass, in the terms a run of them needs. */
  lemma LiveStep<Frame>(s: VideoLooper<Frame>, live: Option<Frame>, captureDelay: real)
    requires Wf(s) && !s.looping
    ensures var t := Loop(s, live, captureDelay).value;
      && Wf(t.next) && !t.next.looping && t.next.canGather == s.canGather && t.next.generator == s.generator
      && t.written == live
      && t.next.buffer == (if s.canGather then Newest(s.buffer + (if live.Some? then [live.value] else [])) else s.buffer)
  {
    if live.Some? && s.canGather {
      AddFrameIsNewest(s.buffer, live.value);
    } else {
      assert s.buffer + [] == s.buffer;
    }
  }

  /** Live passes write every frame read, in order, and keep the cursor where it was. */
  lemma {:induction false} LiveRunWrites<Frame>(s: VideoLooper<Frame>, captures: seq<(Option<Frame>, real)>)
    requires Wf(s) && !s.looping
    ensures LoopMany(s, captures).Success?
    ensures forall i | 0 <= i < |captures| :: LoopMany(s, captures).value.1[i] == captures[i].0
    ensures LoopMany(s, captures).value.0.generator == s.generator
    decreases |captures|
  {
    if captures != [] {
      LiveStep(s, captures[0].0, captures[0].1);
      var t := Loop(s, captures[0].0, captures[0].1).value;
      LiveRunWrites(t.next, captures[1..]);
      var rest := LoopMany(t.next, captures[1..]).value;
      forall i | 0 < i < |captures| ensures LoopMany(s, captures).value.1[i] == captures[i].0 {
        assert LoopMany(s, captures).value.1[i] == rest.1[i - 1];
      }
    }
  }

  /**
   After live passes the history holds the newest `BufferCapacity` frames of the
   old history followed by every frame delivered, or is untouched when gathering is off.
   */
  lemma {:induction false} LiveRunHistory<Frame>(s: VideoLooper<Frame>, captures: seq<(Option<Frame>, real)>)
    requires Wf(s) && !s.looping
    ensures LoopMany(s, captures).Success?
    ensures LoopMany(s, captures).value.0.buffer ==
      (if s.canGather then Newest(s.buffer + Delivered(captures)) else s.buffer)
    decreases |captures|
  {
    if captures == [] {
      assert s.buffer + [] == s.buffer;
    } else {
      LiveStep(s, captures[0].0, captures[0].1);
      var t := Loop(s, captures[0].0, captures[0].1).value;
      LiveRunHistory(t.next, captures[1..]);
      var final := LoopMany(s, captures).value.0;
      assert final == LoopMany(t.next, captures[1..]).value.0;
      if s.canGather {
        var first := if captures[0].0.Some? then [captures[0].0.value] else [];
        assert t.next.buffer == Newest(s.buffer + first);
        assert final.buffer == Newest(Newest(s.buffer + first) + Delivered(captures[1..]));
        var later := Delivered(captures[1..]);
        NewestOfNewest(s.buffer + first, later);
        assert Delivered(captures) == first + later;
        SeqAssoc(s.buffer, first, later);
      }
    }
  }

  /**
   Replaying passes write the history in cycle order from the cursor, `(p + i) %
   BufferCapacity` for the `i`-th pass, and leave the history as it is.
   */
  lemma {:induction false} ReplayRun<Frame>(s: VideoLooper<Frame>, captures: seq<(Option<Frame>, real)>)
    requires Wf(s) && s.looping
    ensures LoopMany(s, captures).Success?
    ensures forall i | 0 <= i < |captures| ::
      LoopMany(s, captures).value.1[i] == Some(s.buffer[Cycle.Take(s.generator, |captures|)[i]])
    ensures LoopMany(s, captures).value.0.buffer == s.buffer
    ensures LoopMany(s, captures).value.0.generator == Cycle.Advance(s.generator, |captures|)
    decreases |captures|
  {
    if captures != [] {
      var t := Loop(s, captures[0].0, captures[0].1).value;
      ReplayRun(t.next, captures[1..]);
      var rest := LoopMany(t.next, captures[1..]).value;
      forall i | 0 <= i < |captures|
        ensures LoopMany(s, captures).value.1[i] == Some(s.buffer[Cycle.Take(s.generator, |captures|)[i]])
      {
        if i > 0 {
          assert LoopMany(s, captures).value.1[i] == rest.1[i - 1];
          assert Cycle.Take(s.generator, |captures|)[i] == Cycle.Take(t.next.generator, |captures| - 1)[i - 1];
        }
      }
    }
  }

  /**
   `BufferCapacity` replaying passes write every frame of the history exactly
   once, starting at the cursor: the history rotated to the cursor.
   */
  lemma ReplayCoversHistory<Frame>(s: VideoLooper<Frame>, captures: seq<(Option<Frame>, real)>)
    requires Wf(s) && s.looping
    requires |captures| == BufferCapacity
    ensures LoopMany(s, captures).Success?
    ensures var written := LoopMany(s, captures).value.1;
      forall i | 0 <= i < |captures| ::
        written[i] == Some((s.buffer[s.generator.pos..] + s.buffer[..s.generator.pos])[i])
    ensures LoopMany(s, captures).value.0.generator == s.generator
  {
    ReplayRun(s, captures);
    Cycle.FullRound(s.generator);
    var p := s.generator.pos;
    forall i | 0 <= i < |captures|
      ensures s.buffer[Cycle.Take(s.generator, BufferCapacity)[i]] == (s.buffer[p..] + s.buffer[..p])[i]
    {
      RotationOrder(s.buffer, p, i);
    }
  }

  /** Indexing a history by the values of one full cycle from `p` reads it rotated to `p`. */
  lemma RotationOrder<Frame>(buffer: seq<Frame>, p: nat, i: nat)
    requires |buffer| == BufferCapacity && p < BufferCapacity && i < BufferCapacity
    ensures var order := Cycle.Range(p, BufferCapacity) + Cycle.Range(0, p);
      order[i] < |buffer| && buffer[order[i]] == (buffer[p..] + buffer[..p])[i]
  {
    var order := Cycle.Range(p, BufferCapacity) + Cycle.Range(0, p);
    if i < BufferCapacity - p {
      assert order[i] == p + i;
    } else {
      assert order[i] == i - (BufferCapacity - p);
    }
  }

  /** One pass, replaying or live, takes one frame period when the read takes at most that. */
  lemma PassTakesOnePeriod<Frame>(s: VideoLooper<Frame>, live: Option<Frame>, captureDelay: real)
    requires Wf(s) && 0.0 <= captureDelay <= FrameDelay
    ensures var t := Loop(s, live, captureDelay).value;
      Wf(t.next) && (if t.captured then captureDelay else 0.0) + t.sleep == FrameDelay
  {
  }

  lemma PeriodsAdd(n: nat)
    requires n > 0
    ensures n as real * FrameDelay == (n - 1) as real * FrameDelay + FrameDelay
  {
  }

  /** A run whose first pass takes one frame period takes one period more than the rest of the run. */
  lemma LoopManyCons<Frame>(s: VideoLooper<Frame>, captures: seq<(Option<Frame>, real)>)
    requires Wf(s) && captures != [] && 0.0 <= captures[0].1 <= FrameDelay
    ensures var t := Loop(s, captures[0].0, captures[0].1).value;
      && Wf(t.next)
      && (LoopMany(t.next, captures[1..]).Success? ==>
            LoopMany(s, captures).Success? &&
            LoopMany(s, captures).value.2 == FrameDelay + LoopMany(t.next, captures[1..]).value.2)
  {
    PassTakesOnePeriod(s, captures[0].0, captures[0].1);
  }

  /**
   Whenever each camera read takes at most one frame period, every pass takes
   exactly one frame period, replaying or live: `n` passes take `n` periods.
   */
  lemma {:induction false} Cadence<Frame>(s: VideoLooper<Frame>, captures: seq<(Option<Frame>, real)>)
    requires Wf(s)
    requires forall i | 0 <= i < |captures| :: 0.0 <= captures[i].1 <= FrameDelay
    ensures LoopMany(s, captures).Success?
    ensures LoopMany(s, captures).value.2 == |captures| as real * FrameDelay
    decreases |captures|
  {
    if captures != [] {
      var t := Loop(s, captures[0].0, captures[0].1).value;
      LoopManyCons(s, captures);
      var tail := captures[1..];
      assert forall i | 0 <= i < |tail| :: tail[i] == captures[i + 1];
      Cadence(t.next, tail);
      PeriodsAdd(|captures|);
    }
  }
}

=== FILE: meeting_format.dfy ===
/**
 The parts of `Meeting` that meeting.py and meeting_ui.py share word for word:
 the two validators `format_meeting_id` and `format_password`, the `__str__`
 renderer, the shape of the meetings file, and the list comprehension
 `[Meeting(*x) for x in tree]` that `load_from_file` uses to rebuild meetings,
 stopping at the first one whose constructor raises.
 */
module MeetingFormat {
  import opened Wrappers
  import opened Text

  /** The `ValueError`s the meeting constructors raise, told apart by their message. */
  datatype FormatError =
    | IncorrectMeetingIdFormat  // "Incorrect meeting ID format"
    | EmptyMeetingId            // "Meeting ID cannot be empty"
    | IncorrectPasswordFormat   // "Incorrect password format"
    | InvalidIsoFormat          // raised by datetime.fromisoformat

  /** What `json.load` makes of the meetings file: missing, not JSON, or a list of stored entries. */
  datatype StoredFile<E> = FileNotFound | JsonDecodeError | Json(tree: seq<E>)

  /** A meeting ID as the validator leaves it: non-empty and digits only. */
  predicate ValidMeetingId(id: string) {
    |id| > 0 && AllDigits(id)
  }

  /** `Meeting.format_meeting_id`: spaces are dropped; the rest must be non-empty and all digits. */
  function FormatMeetingId(id: string): (r: Result<string, FormatError>)
    ensures r.Success? <==> ValidMeetingId(RemoveSpaces(id))
    ensures r.Success? ==> r.value == RemoveSpaces(id)
    ensures r == Failure(IncorrectMeetingIdFormat) <==> !AllDigits(RemoveSpaces(id))
    ensures r == Failure(EmptyMeetingId) <==> RemoveSpaces(id) == []
  {
    var stripped := RemoveSpaces(id);
    DigitSetInclusion(stripped);
    if !(CharSet(stripped) <= CharSet(Digits)) then Failure(IncorrectMeetingIdFormat)
    else if |stripped| == 0 then Failure(EmptyMeetingId)
    else Success(stripped)
  }

  /** `Meeting.format_password`: the password is returned unchanged when it is ASCII letters and digits only. */
  function FormatPassword(password: string): (r: Result<string, FormatError>)
    ensures r.Success? <==> AllAsciiAlnum(password)
    ensures r.Success? ==> r.value == password
    ensures r.Failure? ==> r.error == IncorrectPasswordFormat
  {
    AlnumSetInclusion(password);
    if !(CharSet(password) <= CharSet(AsciiLetters + Digits)) then Failure(IncorrectPasswordFormat)
    else Success(password)
  }

  /** A formatted meeting ID is a fixed point of the formatter. */
  lemma FormatMeetingIdIdempotent(id: string)
    requires FormatMeetingId(id).Success?
    ensures FormatMeetingId(FormatMeetingId(id).value) == FormatMeetingId(id)
  {
    RemoveSpacesNoSpace(RemoveSpaces(id));
  }

  /** A valid ID and password are accepted by the formatters and returned as they are. */
  lemma FormattersAcceptValid(id: string, password: string)
    requires ValidMeetingId(id) && AllAsciiAlnum(password)
    ensures FormatMeetingId(id) == Success(id)
    ensures FormatPassword(password) == Success(password)
  {
    assert forall i | 0 <= i < |id| :: id[i] != ' ';
    RemoveSpacesNoSpace(id);
  }

  /** `"%s %s" % (k, v) for k, v in pairs if len(v)` */
  function ShownPairs(pairs: seq<(string, string)>): seq<string> {
    if pairs == [] then []
    else
      var key := pairs[0].0;
      var value := pairs[0].1;
      (if |value| > 0 then [key + " " + value] else []) + ShownPairs(pairs[1..])
  }

  /** The `"key value"` parts `__str__` keeps for an ID and a password: the non-empty ones, in order. */
  lemma ShownFields(id: string, password: string)
    ensures ShownPairs([("ID", id), ("password", password)]) ==
      (if id == "" then [] else ["ID " + id]) + (if password == "" then [] else ["password " + password])
  {
    var pairs := [("ID", id), ("password", password)];
    assert pairs[1..] == [("password", password)];
    assert pairs[1..][1..] == [];
    assert ShownPairs(pairs[1..][1..]) == [];
    assert "ID" + " " + id == "ID " + id;
    assert "password" + " " + password == "password " + password;
  }

  /**
   `Meeting.__str__` over a meeting's ID, password and name: a named meeting
   is its name with the fields in parentheses, and empty fields are skipped,
   down to empty parentheses (or nothing) when both are empty.
   */
  function Describe(id: string, password: string, name: string): (r: string)
    ensures name != "" ==> name + " (" <= r && r[|r| - 1] == ')'
    ensures id == "" && password == "" ==> r == (if name == "" then "" else name + " ()")
  {
    ShownFields(id, password);
    var r := Join(", ", ShownPairs([("ID", id), ("password", password)]));
    if name != "" then name + " (" + r + ")" else r
  }

  const IdLabel: string := "ID "
  const PasswordLabel: string := ", password "

  /** The rendered ID and password of a meeting whose ID is non-empty. */
  function Inner(id: string, password: string): string {
    IdLabel + id + (if password == "" then "" else PasswordLabel + password)
  }

  /** How a meeting with a non-empty ID renders: its inner text, wrapped in its name when it has one. */
  lemma DescribeParts(id: string, password: string, name: string)
    requires id != ""
    ensures Describe(id, password, name) == (if name == "" then Inner(id, password) else name + " (" + Inner(id, password) + ")")
  {
    ShownFields(id, password);
    var shown := ShownPairs([("ID", id), ("password", password)]);
    if password == "" {
      assert shown == [IdLabel + id];
    } else {
      assert shown == [IdLabel + id, "password " + password];
      assert shown[1..] == ["password " + password];
      assert Join(", ", shown) == IdLabel + id + PasswordLabel + password;
    }
    assert Join(", ", shown) == Inner(id, password);
  }

  /** Reads an ID and password back from the text inside the parentheses. */
  function ParseInner(inner: string): (string, string) {
    var body := if IdLabel <= inner then inner[|IdLabel|..] else inner;
    var id := DigitPrefix(body);
    var rest := body[|id|..];
    var password := if PasswordLabel <= rest then rest[|PasswordLabel|..] else "";
    (id, password)
  }

  /** Reads `(meeting ID, password, name)` back from a rendered meeting. */
  function ParseDescription(text: string): (string, string, string) {
    var k := if |text| > 0 && text[|text| - 1] == ')' then LastIndexOf(text[..|text| - 1], '(') else -1;
    if k >= 1 then
      var inner := ParseInner(text[k + 1..|text| - 1]);
      (inner.0, inner.1, text[..k - 1])
    else
      var inner := ParseInner(text);
      (inner.0, inner.1, "")
  }

  lemma ParseInnerRoundTrip(id: string, password: string)
    requires ValidMeetingId(id) && AllAsciiAlnum(password)
    ensures ParseInner(Inner(id, password)) == (id, password)
  {
    var tail := if password == "" then "" else PasswordLabel + password;
    var inner := IdLabel + id + tail;
    assert inner[|IdLabel|..] == id + tail;
    DigitPrefixOf(id, tail);
    assert (id + tail)[|id|..] == tail;
    if password != "" {
      assert tail[|PasswordLabel|..] == password;
    }
  }

  /** The text inside the parentheses of a valid meeting holds no '('. */
  lemma InnerHasNoParen(id: string, password: string)
    requires ValidMeetingId(id) && AllAsciiAlnum(password)
    ensures '(' !in Inner(id, password)
  {
    var tail := if password == "" then "" else PasswordLabel + password;
    assert '(' !in IdLabel;
    assert '(' !in PasswordLabel;
    assert forall i | 0 <= i < |id| :: id[i] != '(';
    assert forall i | 0 <= i < |password| :: password[i] != '(';
    assert '(' !in tail;
  }

  /** The parenthesis that opens the wrapped part is the last '(' before the closing one. */
  lemma LastParenOpensInner(name: string, inner: string)
    requires '(' !in inner
    ensures LastIndexOf(name + " (" + inner, '(') == |name| + 1
  {
    var front := name + " (" + inner;
    var k := LastIndexOf(front, '(');
    assert front[|name| + 1] == '(';
  }

  /** Without a name, the rendering is the inner text, which does not end in ')'. */
  lemma DescribeRoundTripUnnamed(id: string, password: string)
    requires ValidMeetingId(id) && AllAsciiAlnum(password)
    ensures ParseDescription(Describe(id, password, "")) == (id, password, "")
  {
    var inner := Inner(id, password);
    DescribeParts(id, password, "");
    ParseInnerRoundTrip(id, password);
    assert inner[|inner| - 1] == (if password == "" then id[|id| - 1] else password[|password| - 1]);
  }

  /** The pieces of `name (inner)` that parsing cuts out. */
  lemma WrappedSlices(name: string, inner: string)
    requires name != ""
    ensures var text := name + " (" + inner + ")";
      && text[|text| - 1] == ')'
      && text[..|text| - 1] == name + " (" + inner
      && text[|name| + 2..|text| - 1] == inner
      && text[..|name|] == name
  {
    var text := name + " (" + inner + ")";
    assert text[..|text| - 1] == name + " (" + inner;
    assert text[|name| + 2..|text| - 1] == inner by {
      forall i | 0 <= i < |inner| ensures text[|name| + 2 + i] == inner[i] { }
    }
    assert text[..|name|] == name by {
      forall i | 0 <= i < |name| ensures text[i] == name[i] { }
    }
  }

  /** A name wrapped around a text without '(' is split off again at the last '('. */
  lemma ParseWrapped(name: string, inner: string)
    requires name != "" && '(' !in inner
    ensures ParseDescription(name + " (" + inner + ")") == (ParseInner(inner).0, ParseInner(inner).1, name)
  {
    WrappedSlices(name, inner);
    LastParenOpensInner(name, inner);
  }

  /** With a name, the last '(' separates the name from the inner text. */
  lemma DescribeRoundTripNamed(id: string, password: string, name: string)
    requires ValidMeetingId(id) && AllAsciiAlnum(password)
    requires name != ""
    ensures ParseDescription(Describe(id, password, name)) == (id, password, name)
  {
    DescribeParts(id, password, name);
    InnerHasNoParen(id, password);
    ParseWrapped(name, Inner(id, password));
    ParseInnerRoundTrip(id, password);
  }

  /**
   The rendering loses nothing for a valid meeting: ID, password and name are read
   back exactly, whatever the name contains.
   */
  lemma DescribeRoundTrip(id: string, password: string, name: string)
    requires ValidMeetingId(id) && AllAsciiAlnum(password)
    ensures ParseDescription(Describe(id, password, name)) == (id, password, name)
  {
    if name == "" {
      DescribeRoundTripUnnamed(id, password);
    } else {
      DescribeRoundTripNamed(id, password, name);
    }
  }

  /** Two valid meetings with the same rendering agree on ID, password and name. */
  lemma DescribeInjective(id1: string, password1: string, name1: string, id2: string, password2: string, name2: string)
    requires ValidMeetingId(id1) && AllAsciiAlnum(password1)
    requires ValidMeetingId(id2) && AllAsciiAlnum(password2)
    requires Describe(id1, password1, name1) == Describe(id2, password2, name2)
    ensures id1 == id2 && password1 == password2 && name1 == name2
  {
    DescribeRoundTrip(id1, password1, name1);
    DescribeRoundTrip(id2, password2, name2);
  }

  /**
   `[build(x) for x in tree]` where `build` may raise: all built in order, or the
   error of the first entry that fails.
   */
  function BuildAll<E, M>(tree: seq<E>, build: E -> Result<M, FormatError>): (r: Result<seq<M>, FormatError>)
    ensures r.Success? <==> forall i | 0 <= i < |tree| :: build(tree[i]).Success?
    ensures r.Success? ==> |r.value| == |tree| && forall i | 0 <= i < |tree| :: build(tree[i]) == Success(r.value[i])
    ensures r.Failure? ==> exists i | 0 <= i < |tree| ::
      && build(tree[i]) == Failure(r.error)
      && forall j | 0 <= j < i :: build(tree[j]).Success?
  {
    if tree == [] then Success([])
    else
      match build(tree[0])
      case Failure(e) => Failure(e)
      case Success(m) =>
        match BuildAll(tree[1..], build)
        case Failure(e) =>
          ghost var i :| 0 <= i < |tree| - 1 && build(tree[1..][i]) == Failure(e)
            && forall j | 0 <= j < i :: build(tree[1..][j]).Success?;
          assert build(tree[i + 1]) == Failure(e);
          Failure(e)
        case Success(ms) => Success([m] + ms)
  }
}

=== FILE: meetings.dfy ===
/**
 meeting.py: a `Meeting` carries an ID, a password, a name and a start time; a
 `MeetingList` is saved as a JSON array of four-field tuples and loaded back,
 falling back to an empty list when the file is missing, is not JSON, or holds an
 entry the constructor rejects. Times are abstract integer timestamps.
 */
module Meetings {
  import opened Wrappers
  import opened Text
  import opened MeetingFormat
  import PyList

  datatype Meeting = Meeting(meetingId: string, password: string, name: string, when: int)

  /** What the constructor guarantees of every meeting it builds. */
  predicate Valid(m: Meeting) {
    ValidMeetingId(m.meetingId) && AllAsciiAlnum(m.password)
  }

  /**
   The time field of a stored tuple: the text `isoformat()` wrote for a naive
   timestamp, or any other text together with what `fromisoformat` makes of it.
   Other naive forms it accepts, a date alone or a time without seconds, give
   `Some` timestamp; text it rejects gives `None`. Times are naive throughout:
   text with a UTC offset, which parses to an aware datetime, has no value here.
   */
  datatype IsoText = IsoOf(stamp: int) | OtherText(text: string, parsed: Option<int>)

  /** One stored meeting: the tuple `__iter__` yields. */
  datatype Entry = Entry(meetingId: string, password: string, name: string, when: IsoText)

  /** `datetime.fromisoformat`: reads `isoformat` output back, and raises on text it cannot parse. */
  function FromIsoFormat(t: IsoText): (r: Result<int, FormatError>)
    ensures r.Success? <==> t.IsoOf? || t.parsed.Some?
    ensures t.IsoOf? ==> r == Success(t.stamp)
    ensures t.OtherText? && t.parsed.Some? ==> r == Success(t.parsed.value)
    ensures r.Failure? ==> r.error == InvalidIsoFormat
  {
    match t
    case IsoOf(stamp) => Success(stamp)
    case OtherText(_, parsed) =>
      match parsed
      case Some(stamp) => Success(stamp)
      case None => Failure(InvalidIsoFormat)
  }

  /** `Meeting(meeting_id, password, name, datetime)` given a datetime object. */
  function NewMeeting(id: string, password: string, name: string, when: int): (r: Result<Meeting, FormatError>)
    ensures r.Success? <==> ValidMeetingId(RemoveSpaces(id)) && AllAsciiAlnum(password)
    ensures r.Success? ==> Valid(r.value) && r.value == Meeting(RemoveSpaces(id), password, name, when)
    ensures r.Failure? && FormatMeetingId(id).Failure? ==> r.error == FormatMeetingId(id).error
    ensures r.Failure? && FormatMeetingId(id).Success? ==> r.error == IncorrectPasswordFormat
  {
    match FormatMeetingId(id)
    case Failure(e) => Failure(e)
    case Success(formattedId) =>
      match FormatPassword(password)
      case Failure(e) => Failure(e)
      case Success(formattedPassword) => Success(Meeting(formattedId, formattedPassword, name, when))
  }

  /** `Meeting(*x)` for a stored tuple `x`: the time text is parsed before the ID and password are checked. */
  function FromEntry(e: Entry): (r: Result<Meeting, FormatError>)
    ensures FromIsoFormat(e.when).Failure? ==> r == Failure(InvalidIsoFormat)
    ensures FromIsoFormat(e.when).Success? ==>
      r == NewMeeting(e.meetingId, e.password, e.name, FromIsoFormat(e.when).value)
  {
    match FromIsoFormat(e.when)
    case Failure(err) => Failure(err)
    case Success(when) => NewMeeting(e.meetingId, e.password, e.name, when)
  }

  /** `tuple(m)`, through `Meeting.__iter__`. */
  function ToEntry(m: Meeting): (e: Entry)
    ensures (e.meetingId, e.password, e.name) == (m.meetingId, m.password, m.name)
    ensures FromIsoFormat(e.when) == Success(m.when)
  {
    Entry(m.meetingId, m.password, m.name, IsoOf(m.when))
  }

  /** `MeetingList.save`: the tree written to the file, one tuple per meeting, in list order. */
  function Save(meetings: seq<Meeting>): (tree: seq<Entry>)
    ensures |tree| == |meetings|
    ensures forall i | 0 <= i < |meetings| :: tree[i] == ToEntry(meetings[i])
  {
    seq(|meetings|, i requires 0 <= i < |meetings| => ToEntry(meetings[i]))
  }

  /** `MeetingList.load_from_file`: every error the source catches yields the empty list. */
  function LoadFromFile(file: StoredFile<Entry>): (r: seq<Meeting>)
    ensures !file.Json? ==> r == []
    ensures file.Json? && (exists i | 0 <= i < |file.tree| :: FromEntry(file.tree[i]).Failure?) ==> r == []
    ensures file.Json? && (forall i | 0 <= i < |file.tree| :: FromEntry(file.tree[i]).Success?) ==>
      |r| == |file.tree| && forall i | 0 <= i < |r| :: FromEntry(file.tree[i]) == Success(r[i])
    ensures forall i | 0 <= i < |r| :: Valid(r[i])
  {
    match file
    case FileNotFound => []
    case JsonDecodeError => []
    case Json(tree) =>
      match BuildAll(tree, FromEntry)
      case Failure(_) => []
      case Success(meetings) =>
        assert forall i | 0 <= i < |meetings| :: FromEntry(tree[i]) == Success(meetings[i]);
        meetings
  }

  /**
   A time written in another form `fromisoformat` accepts, here a date alone, is
   loaded like any other: the list holds the one meeting the tuple describes.
   */
  lemma DateOnlyEntryLoads(stamp: int)
    ensures LoadFromFile(Json([Entry("123", "", "", OtherText("2021-05-01", Some(stamp)))])) == [Meeting("123", "", "", stamp)]
  {
    FormattersAcceptValid("123", "");
  }

  /** A meeting survives being stored as a tuple and rebuilt. */
  lemma EntryRoundTrip(m: Meeting)
    requires Valid(m)
    ensures FromEntry(ToEntry(m)) == Success(m)
  {
    FormattersAcceptValid(m.meetingId, m.password);
  }

  /** Saving a list of constructed meetings and loading the file gives back the same list. */
  lemma SaveLoadRoundTrip(meetings: seq<Meeting>)
    requires forall i | 0 <= i < |meetings| :: Valid(meetings[i])
    ensures LoadFromFile(Json(Save(meetings))) == meetings
  {
    var tree := Save(meetings);
    forall i | 0 <= i < |tree| ensures FromEntry(tree[i]) == Success(meetings[i]) {
      EntryRoundTrip(meetings[i]);
    }
    var r := LoadFromFile(Json(tree));
    assert |r| == |meetings|;
    assert forall i | 0 <= i < |r| :: r[i] == meetings[i];
  }

  /** `str(m)` */
  function ToString(m: Meeting): string {
    Describe(m.meetingId, m.password, m.name)
  }

  /** Two constructed meetings that print alike agree on all but their start time. */
  lemma ToStringDeterminesFields(m1: Meeting, m2: Meeting)
    requires Valid(m1) && Valid(m2)
    requires ToString(m1) == ToString(m2)
    ensures m1 == m2.(when := m1.when)
  {
    DescribeInjective(m1.meetingId, m1.password, m1.name, m2.meetingId, m2.password, m2.name);
  }

  /** The list operations keep every meeting in the list a constructed one. */
  lemma ListOperationsKeepValid(meetings: seq<Meeting>, index: int, m: Meeting)
    requires forall i | 0 <= i < |meetings| :: Valid(meetings[i])
    requires Valid(m)
    ensures var r := PyList.Append(meetings, m); forall i | 0 <= i < |r| :: Valid(r[i])
    ensures var r := PyList.ReplaceIndex(meetings, index, m);
      r.Success? ==> forall i | 0 <= i < |r.value| :: Valid(r.value[i])
    ensures var r := PyList.RemoveIndex(meetings, index);
      r.Success? ==> forall i | 0 <= i < |r.value| :: Valid(r.value[i])
  {
  }
}

=== FILE: meetings_ui.dfy ===
/**
 meeting_ui.py, the earlier revision: a `Meeting` has only an ID, a password and
 a name, is saved as a `(meeting_id, password, name)` triple, and
 `load_from_file` has no fallback, so a missing file, a JSON error or a rejected
 entry reaches the caller as the exception it is.
 */
module MeetingsUi {
  import opened Wrappers
  import opened Text
  import opened MeetingFormat

  datatype Meeting = Meeting(meetingId: string, password: string, name: string)

  predicate Valid(m: Meeting) {
    ValidMeetingId(m.meetingId) && AllAsciiAlnum(m.password)
  }

  /** One stored triple. */
  datatype Entry = Entry(meetingId: string, password: string, name: string)

  /** The exceptions `load_from_file` lets through. */
  datatype LoadError = NoFile | BadJson | Rejected(error: FormatError)

  /** `Meeting(meeting_id, password, name)` */
  function NewMeeting(id: string, password: string, name: string): (r: Result<Meeting, FormatError>)
    ensures r.Success? <==> ValidMeetingId(RemoveSpaces(id)) && AllAsciiAlnum(password)
    ensures r.Success? ==> Valid(r.value) && r.value == Meeting(RemoveSpaces(id), password, name)
    ensures r.Failure? && FormatMeetingId(id).Failure? ==> r.error == FormatMeetingId(id).error
    ensures r.Failure? && FormatMeetingId(id).Success? ==> r.error == IncorrectPasswordFormat
  {
    match FormatMeetingId(id)
    case Failure(e) => Failure(e)
    case Success(formattedId) =>
      match FormatPassword(password)
      case Failure(e) => Failure(e)
      case Success(formattedPassword) => Success(Meeting(formattedId, formattedPassword, name))
  }

  function FromEntry(e: Entry): (r: Result<Meeting, FormatError>)
    ensures r.Success? <==> ValidMeetingId(RemoveSpaces(e.meetingId)) && AllAsciiAlnum(e.password)
    ensures r.Success? ==> Valid(r.value) && r.value == Meeting(RemoveSpaces(e.meetingId), e.password, e.name)
  {
    NewMeeting(e.meetingId, e.password, e.name)
  }

  /** `MeetingList.save`: the tree of triples written to the file, in list order. */
  function Save(meetings: seq<Meeting>): (tree: seq<Entry>)
    ensures |tree| == |meetings|
    ensures forall i | 0 <= i < |meetings| ::
      tree[i] == Entry(meetings[i].meetingId, meetings[i].password, meetings[i].name)
  {
    seq(|meetings|, i requires 0 <= i < |meetings| => Entry(meetings[i].meetingId, meetings[i].password, meetings[i].name))
  }

  /** `MeetingList.load_from_file`: the meetings, or the first exception raised. */
  function LoadFromFile(file: StoredFile<Entry>): (r: Result<seq<Meeting>, LoadError>)
    ensures file.FileNotFound? ==> r == Failure(NoFile)
    ensures file.JsonDecodeError? ==> r == Failure(BadJson)
    ensures file.Json? ==> (r.Success? <==> forall i | 0 <= i < |file.tree| :: FromEntry(file.tree[i]).Success?)
    ensures r.Success? ==> file.Json? && |r.value| == |file.tree|
    ensures r.Success? ==> forall i | 0 <= i < |r.value| ::
      Valid(r.value[i]) && FromEntry(file.tree[i]) == Success(r.value[i])
    ensures file.Json? && r.Failure? ==> r.error.Rejected? && exists i | 0 <= i < |file.tree| ::
      && FromEntry(file.tree[i]) == Failure(r.error.error)
      && forall j | 0 <= j < i :: FromEntry(file.tree[j]).Success?
  {
    match file
    case FileNotFound => Failure(NoFile)
    case JsonDecodeError => Failure(BadJson)
    case Json(tree) =>
      match BuildAll(tree, FromEntry)
      case Failure(e) => Failure(Rejected(e))
      case Success(meetings) =>
        assert forall i | 0 <= i < |meetings| :: FromEntry(tree[i]) == Success(meetings[i]);
        Success(meetings)
  }

  /** `MeetingList()` starts out empty. */
  const EmptyList: seq<Meeting> := []

  /** Saving constructed meetings and loading the file gives back the same list. */
  lemma SaveLoadRoundTrip(meetings: seq<Meeting>)
    requires forall i | 0 <= i < |meetings| :: Valid(meetings[i])
    ensures LoadFromFile(Json(Save(meetings))) == Success(meetings)
  {
    var tree := Save(meetings);
    forall i | 0 <= i < |tree| ensures FromEntry(tree[i]) == Success(meetings[i]) {
      FormattersAcceptValid(meetings[i].meetingId, meetings[i].password);
    }
    var r := LoadFromFile(Json(tree));
    assert r.value == meetings;
  }

  /** `str(m)` */
  function ToString(m: Meeting): string {
    Describe(m.meetingId, m.password, m.name)
  }

  /** Constructed meetings that print alike are the same meeting. */
  lemma ToStringInjective(m1: Meeting, m2: Meeting)
    requires Valid(m1) && Valid(m2)
    requires ToString(m1) == ToString(m2)
    ensures m1 == m2
  {
    DescribeInjective(m1.meetingId, m1.password, m1.name, m2.meetingId, m2.password, m2.name);
  }
}

=== FILE: pylist.dfy ===
/**
 Python list operations addressed by index, as `MeetingList` uses them: `lst[i]`,
 `lst.append(x)`, `lst[i] = x` and `del lst[i]`. An index may be negative (counted
 from the end); an index outside the list raises `IndexError`.
 */
module PyList {
  import opened Wrappers

  datatype IndexError = IndexError

  /** Whether `index` addresses an element of a list of length `n`. */
  predicate InRange(n: nat, index: int) {
    -(n as int) <= index < n
  }

  /** The position Python's index `index` denotes in a list of length `n`, if any. */
  function Position(n: nat, index: int): (r: Option<nat>)
    ensures r.Some? <==> InRange(n, index)
    ensures r.Some? ==> r.value < n
    ensures r.Some? && index >= 0 ==> r.value == index
    ensures r.Some? && index < 0 ==> r.value + (-index) == n
  {
    if 0 <= index < n then Some(index as nat)
    else if 0 <= n + index && index < 0 then Some((n + index) as nat)
    else None
  }

  /** `lst[index]` */
  function GetIndex<T>(xs: seq<T>, index: int): (r: Result<T, IndexError>)
    ensures r.Success? <==> InRange(|xs|, index)
    ensures r.Success? ==> r.value in xs
    ensures 0 <= index < |xs| ==> r == Success(xs[index])
    ensures InRange(|xs|, index) && index < 0 ==> r == Success(xs[|xs| + index])
  {
    match Position(|xs|, index)
    case None => Failure(IndexError)
    case Some(k) => Success(xs[k])
  }

  /** `lst.append(x)`: the list grows by one at its end and nothing before it moves. */
  function Append<T>(xs: seq<T>, x: T): (r: seq<T>)
    ensures |r| == |xs| + 1
    ensures forall j | 0 <= j < |xs| :: r[j] == xs[j]
    ensures r[|xs|] == x
  {
    xs + [x]
  }

  /** `lst[index] = x`: only the indexed position changes. */
  function ReplaceIndex<T>(xs: seq<T>, index: int, x: T): (r: Result<seq<T>, IndexError>)
    ensures r.Success? <==> InRange(|xs|, index)
    ensures r.Success? ==> |r.value| == |xs|
    ensures r.Success? ==> var k := Position(|xs|, index).value;
      r.value[k] == x && forall j | 0 <= j < |xs| && j != k :: r.value[j] == xs[j]
  {
    match Position(|xs|, index)
    case None => Failure(IndexError)
    case Some(k) => Success(xs[k := x])
  }

  /** `del lst[index]`: the indexed element goes and the others keep their relative order. */
  function RemoveIndex<T>(xs: seq<T>, index: int): (r: Result<seq<T>, IndexError>)
    ensures r.Success? <==> InRange(|xs|, index)
    ensures r.Success? ==> |r.value| + 1 == |xs|
    ensures r.Success? ==> var k := Position(|xs|, index).value;
      && (forall j | 0 <= j < k :: r.value[j] == xs[j])
      && (forall j | k <= j < |r.value| :: r.value[j] == xs[j + 1])
      && multiset(r.value) + multiset{xs[k]} == multiset(xs)
  {
    match Position(|xs|, index)
    case None => Failure(IndexError)
    case Some(k) =>
      assert xs == xs[..k] + [xs[k]] + xs[k + 1..];
      Success(xs[..k] + xs[k + 1..])
  }

  /** Reading back a replaced position gives the new element. */
  lemma GetAfterReplace<T>(xs: seq<T>, index: int, x: T)
    requires InRange(|xs|, index)
    ensures GetIndex(ReplaceIndex(xs, index, x).value, index) == Success(x)
  {
  }

  /** Writing an element back to the position it was read from leaves the list as it was. */
  lemma ReplaceWithOwnElement<T>(xs: seq<T>, index: int)
    requires InRange(|xs|, index)
    ensures ReplaceIndex(xs, index, GetIndex(xs, index).value) == Success(xs)
  {
    var k := Position(|xs|, index).value;
    assert xs[k := xs[k]] == xs;
  }

  /** `del lst[-1]` undoes `lst.append(x)`. */
  lemma RemoveLastUndoesAppend<T>(xs: seq<T>, x: T)
    ensures RemoveIndex(Append(xs, x), -1) == Success(xs)
  {
    var r := RemoveIndex(Append(xs, x), -1).value;
    assert r == xs;
  }
}

=== FILE: text.dfy ===
/** Character classes and the few string operations the meeting code relies on. */
module Text {

  /** Python's `string.digits`. */
  const Digits: string := "0123456789"

  /** Python's `string.ascii_lowercase`. */
  const AsciiLowercase: string := "abcdefghijklmnopqrstuvwxyz"

  /** Python's `string.ascii_uppercase`. */
  const AsciiUppercase: string := "ABCDEFGHIJKLMNOPQRSTUVWXYZ"

  /** Python's `string.ascii_letters`. */
  const AsciiLetters: string := AsciiLowercase + AsciiUppercase

  /** Python's `set(s)`: the characters occurring in `s`. */
  function CharSet(s: string): set<char> {
    set c | c in s
  }

  predicate IsDigit(c: char) {
    '0' <= c <= '9'
  }

  predicate IsAsciiAlnum(c: char) {
    'a' <= c <= 'z' || 'A' <= c <= 'Z' || IsDigit(c)
  }

  predicate AllDigits(s: string) {
    forall i | 0 <= i < |s| :: IsDigit(s[i])
  }

  predicate AllAsciiAlnum(s: string) {
    forall i | 0 <= i < |s| :: IsAsciiAlnum(s[i])
  }

  lemma DigitsAreDigits()
    ensures forall c :: c in Digits <==> IsDigit(c)
  {
    forall c | c in Digits ensures IsDigit(c) { }
    forall c: char | IsDigit(c) ensures c in Digits { }
  }

  lemma LowercaseLetters()
    ensures forall c :: c in AsciiLowercase <==> 'a' <= c <= 'z'
  {
    forall c | c in AsciiLowercase ensures 'a' <= c <= 'z' { }
    forall c: char | 'a' <= c <= 'z' ensures c in AsciiLowercase { }
  }

  lemma UppercaseLetters()
    ensures forall c :: c in AsciiUppercase <==> 'A' <= c <= 'Z'
  {
    forall c | c in AsciiUppercase ensures 'A' <= c <= 'Z' { }
    forall c: char | 'A' <= c <= 'Z' ensures c in AsciiUppercase { }
  }

  lemma AlnumChars()
    ensures forall c :: c in AsciiLetters + Digits <==> IsAsciiAlnum(c)
  {
    DigitsAreDigits();
    LowercaseLetters();
    UppercaseLetters();
    forall c ensures c in AsciiLetters + Digits <==> c in AsciiLowercase || c in AsciiUppercase || c in Digits { }
  }

  /** `set(s) <= set(string.digits)` holds exactly when every character of `s` is a decimal digit. */
  lemma DigitSetInclusion(s: string)
    ensures CharSet(s) <= CharSet(Digits) <==> AllDigits(s)
  {
    DigitsAreDigits();
    if CharSet(s) <= CharSet(Digits) {
      forall i | 0 <= i < |s| ensures IsDigit(s[i]) {
        assert s[i] in CharSet(s);
      }
    }
  }

  /** `set(s) <= set(string.ascii_letters + string.digits)` holds exactly when every character is an ASCII letter or digit. */
  lemma AlnumSetInclusion(s: string)
    ensures CharSet(s) <= CharSet(AsciiLetters + Digits) <==> AllAsciiAlnum(s)
  {
    AlnumChars();
    if CharSet(s) <= CharSet(AsciiLetters + Digits) {
      forall i | 0 <= i < |s| ensures IsAsciiAlnum(s[i]) {
        assert s[i] in CharSet(s);
      }
    }
  }

  /** Python's `s.replace(" ", "")`: every space goes, every other character stays, in order. */
  function RemoveSpaces(s: string): (r: string)
    ensures ' ' !in r
    ensures |r| <= |s|
    ensures forall c | c != ' ' :: multiset(r)[c] == multiset(s)[c]
  {
    if s == [] then []
    else if s[0] == ' ' then
      assert s == [s[0]] + s[1..];
      RemoveSpaces(s[1..])
    else
      assert s == [s[0]] + s[1..];
      [s[0]] + RemoveSpaces(s[1..])
  }

  /** Removing spaces works piecewise, so the characters that survive keep their order. */
  lemma {:induction false} RemoveSpacesAppend(a: string, b: string)
    ensures RemoveSpaces(a + b) == RemoveSpaces(a) + RemoveSpaces(b)
  {
    if a == [] {
      assert a + b == b;
    } else {
      assert (a + b)[1..] == a[1..] + b;
      RemoveSpacesAppend(a[1..], b);
    }
  }

  /** A string without spaces is left as it is. */
  lemma {:induction false} RemoveSpacesNoSpace(s: string)
    requires ' ' !in s
    ensures RemoveSpaces(s) == s
  {
    if s != [] {
      assert ' ' !in s[1..];
      RemoveSpacesNoSpace(s[1..]);
    }
  }

  /** Python's `sep.join(parts)`. */
  function Join(sep: string, parts: seq<string>): (r: string)
    ensures parts == [] ==> r == []
    ensures |parts| == 1 ==> r == parts[0]
    ensures |parts| >= 1 ==> parts[0] <= r
  {
    if parts == [] then []
    else if |parts| == 1 then parts[0]
    else parts[0] + sep + Join(sep, parts[1..])
  }

  /** The longest prefix of `s` made of decimal digits. */
  function DigitPrefix(s: string): (r: string)
    ensures r <= s && AllDigits(r)
    ensures |r| < |s| ==> !IsDigit(s[|r|])
  {
    if s == [] || !IsDigit(s[0]) then []
    else [s[0]] + DigitPrefix(s[1..])
  }

  /** A run of digits followed by a non-digit (or nothing) is read back exactly. */
  lemma {:induction false} DigitPrefixOf(d: string, rest: string)
    requires AllDigits(d)
    requires rest == [] || !IsDigit(rest[0])
    ensures DigitPrefix(d + rest) == d
  {
    if d == [] {
      assert d + rest == rest;
    } else {
      assert (d + rest)[1..] == d[1..] + rest;
      DigitPrefixOf(d[1..], rest);
    }
  }

  /** The index of the last occurrence of `c` in `s`, or -1. */
  function LastIndexOf(s: string, c: char): (k: int)
    ensures -1 <= k < |s|
    ensures k >= 0 ==> s[k] == c && forall j | k < j < |s| :: s[j] != c
    ensures k == -1 ==> c !in s
  {
    if s == [] then -1
    else if s[|s| - 1] == c then |s| - 1
    else LastIndexOf(s[..|s| - 1], c)
  }
}

=== FILE: wrappers.dfy ===
/** `Option` for Python's `None`-or-value, `Result` for a value or a raised exception. */
module Wrappers {

  datatype Option<+T> = None | Some(value: T)

  datatype Result<+T, +E> = Success(value: T) | Failure(error: E)
}
